=== FILE: README.md ===
# Idle-game economy ledger, in Dafny

This project models the economy of a chat-bot idle game. Users register and
buy buildings that pay currency on every tick. They start timed tasks
through a delayed-job manager, and they trade their progress for a prestige
level that multiplies all income. Each piece of the game is a pure function
over immutable maps:

- `Ledger` holds the `users`, `buildings`, `users_buildings` and
  `user_tasks` tables. Each table is a map. Ownership is keyed by
  `Holding(user, building)`, which mirrors `UNIQUE (user_id, building_id)`.
  `Income` is the per-tick sum of `count * income * prestige` over a user's
  rows.
- `UserRepo` models the user data-access object: registration, the guarded
  purchase, the currency tick, the income and balance queries, and the
  prestige reset. `UserRepoProps` relates these operations to each other.
- `BuildingsRepo` and `TasksRepo` give the catalog views scaled by prestige.
- `Settings` holds the prestige price. `LevelRewards` holds the level
  reward table, the reward's rendering and its effect on the ledger.
  `Decimal` renders integers as Python's `str` does for ordinary
  magnitudes. Python's limit on the digit count of an int-to-string
  conversion is not modelled; the reward amounts are far below it.
- `TaskManager` models the pending-job dictionary, `apply_with_delay`, and
  one pass of the `catch_results` poller. `PyCall` models how a stored
  callback call unpacks and binds its arguments.
- `Game` holds the handler decisions: `start`, `prestige_buy`, `start_task`,
  the task-completion callback and the currency-tick loop.
- `Migrations` selects and records migration files. `Strings` provides
  Python's string order and `endswith`.

Rows are keyed by the user's telegram id. `users.id` is a surrogate key in
one-to-one correspondence with the unique telegram id, so the joins through
`users.id` become lookups by telegram id. Money columns (`BIGINT`) are
unbounded integers. `prestige` is a natural number.

Facts about the code that the model keeps:

- The prestige price is `p * p * 10000000`, so the first prestige is free.
- `prestige_up` resets neither level nor experience, and it does not check
  the price; only the `prestige_buy` handler does.

In the code a purchase is several separate statements, not one transaction;
the model makes it one transition (see "## Left out").

`CheckUser`, `GetCurrency` and `GetPrestige` are plain lookups. What they
return after each transition is stated by
`UserRepoProps.CheckUserTracksRegistration`,
`UserRepoProps.GetCurrencyTracksTransitions` and
`UserRepoProps.GetPrestigeTracksTransitions`.

## Model

| member | source | states |
|---|---|---|
| Settings.PrestigePrice | settings.py:18 | The price is never negative. It is zero exactly at prestige 0, and it is a multiple of 10000000. |
| Settings.FirstPrestigeAffordable | settings.py:18 | Any non-negative balance meets the price of the first prestige. |
| Settings.PriceStrictlyIncreasing | settings.py:18 | The price strictly increases with the prestige level. |
| Ledger.IncomeFrame | users/user_repo.py:78-83 | A user's income depends only on their own ownership rows, the catalog and their prestige. |
| UserRepo.RegisterUser | users/user_repo.py:32-37 | Registration fails exactly for ids already registered. Otherwise it adds exactly that user, with currency 0 and the other column defaults, and keeps every other row. |
| UserRepo.BuyBuilding | users/user_repo.py:51-72 | A purchase succeeds iff the user and building exist and currency >= cost. A declined purchase changes nothing. A successful one debits exactly the cost, leaving a non-negative balance. It adds one to that (user, building) count, inserting 1 when the row is absent. No other user or count changes. |
| UserRepo.CurrencyTick | users/user_repo.py:75-85 | Every user's balance grows by their income: the sum of count * income * prestige over their rows, and 0 for users without rows. Nothing but balances changes. |
| UserRepo.GetIncome | users/user_repo.py:94-106 | The income query is 0 for a user with no rows, including an unknown user. It is non-negative when catalog incomes are. |
| UserRepo.GetCurrencyStatus | users/user_repo.py:109-112 | The status pairs the stored balance, absent exactly for unknown users, with the income query. |
| UserRepo.PrestigeUp | users/user_repo.py:11-28 | Prestige goes up by one and currency becomes 1000 times the new prestige. Level and experience are untouched. All the user's ownership rows are deleted, and no other user's rows or fields change. An unknown id changes nothing. |
| UserRepoProps.GetIncomeIsTickShare | users/user_repo.py:75-106 | The income query and the tick's per-user sum are the same quantity. |
| UserRepoProps.BuyRaisesIncome | users/user_repo.py:62-71 | A purchase raises the buyer's income by the building's income times their prestige. It leaves every other user's income unchanged. |
| UserRepoProps.PrestigeIncome | users/user_repo.py:25-28 | After a prestige the user's income is 0, and every other user's income is unchanged. |
| UserRepoProps.TickKeepsIncome | users/user_repo.py:77-83 | A tick leaves every user's income unchanged. |
| UserRepoProps.TickAddsIncome | users/user_repo.py:77-83 | One tick raises a user's balance by exactly what `get_income` reports. |
| UserRepoProps.TwoTicks | users/user_repo.py:77-83 | Two consecutive ticks add twice the income. |
| UserRepoProps.StatusAfterPurchase | main.py:245-251 | The balance shown after a purchase is the old balance minus the cost. The income shown is the old income plus the building's income times the buyer's prestige. |
| UserRepoProps.CheckUserTracksRegistration | users/user_repo.py:39-48 | `check_user` becomes true exactly through a registration, and registration goes through exactly when it was false. A purchase, a prestige and a tick neither add nor remove a user. |
| UserRepoProps.GetCurrencyTracksTransitions | users/user_repo.py:87-92 | `get_currency` is absent exactly for unknown users. It reads 0 after registration, drops by the cost on a purchase, grows by `get_income` on a tick and is 1000 times the new prestige after a prestige. |
| UserRepoProps.GetPrestigeTracksTransitions | users/user_repo.py:114-118 | `get_prestige` is absent exactly for unknown users and starts at the column default. A prestige raises that user's value by one. A purchase or a tick changes no one's value. |
| BuildingsRepo.ListBuildings | buildings/buildings_repo.py:13-23 | There is one view per catalog building, with id, cost and name unchanged and income equal to base income times the user's prestige. An unknown user fails unless the catalog is empty. |
| BuildingsRepo.GetBuildingName | buildings/buildings_repo.py:26-33 | Returns the stored name of a known building, and nothing for an unknown id. |
| BuildingsRepo.ListedIncomeZeroAtPrestigeZero | buildings/buildings_repo.py:18 | At prestige 0 every listed income is 0. |
| BuildingsRepo.ListedIncomeIsPurchaseGain | buildings/buildings_repo.py:18 | The income listed for a building is exactly what buying one more adds to the user's income per tick. |
| BuildingsRepo.NameAgreesWithListing | buildings/buildings_repo.py:26-33 | A building has a name exactly when the listing shows it, and the two names agree. |
| BuildingsRepo.NameStable | main.py:245-258 | No purchase, prestige, tick, reward or registration renames a building. So the name in the reply after a purchase, bought or declined, is the catalog's name. |
| TasksRepo.GetTasks | tasks/tasks_repo.py:12-25 | There is one view per catalog task. Id, name, level, cost and length are unchanged, and reward and experience reward are multiplied by prestige. An unknown user fails unless the catalog is empty. |
| TasksRepo.NoRewardAtPrestigeZero | tasks/tasks_repo.py:21 | At prestige 0 every task lists reward 0 and experience 0. |
| TasksRepo.PrestigeRaisesTaskRewards | tasks/tasks_repo.py:17-24 | After a prestige every listed reward and experience reward grows by the task's base amount. The other listed fields stay the same. |
| LevelRewards.RewardFor | users/level_rewards.py:31 | The table has an entry exactly for levels 0..99, and level i maps to `Currency(2000 * i)`. |
| LevelRewards.RewardsIncrease | users/level_rewards.py:31 | Reward amounts strictly increase with level. |
| LevelRewards.LevelZeroPaysNothing | users/level_rewards.py:31 | Level 0 rewards 0. |
| LevelRewards.ToUser | users/level_rewards.py:24-25 | The rendering ends with `$`. |
| LevelRewards.ToUserRoundTrip | users/level_rewards.py:24-25 | The amount can be read back from the text before the `$`. |
| LevelRewards.Apply | users/level_rewards.py:27-28 | Applying a reward adds exactly its amount to that user's balance. No other user and no other field changes. |
| LevelRewards.ApplyKeepsIncome | users/level_rewards.py:27-28 | A reward leaves every user's income per tick unchanged. |
| LevelRewards.ApplyCommutesWithTick | users/level_rewards.py:27-28 | Granting a reward and running a currency tick give the same ledger in either order. |
| PyCall.Unpack | task_manager.py:32 | `*args, **kwargs` raises when either stored value is None. A None keyword map is reported first, as CPython merges `**` before it unpacks `*`. Otherwise the values pass through unchanged. |
| PyCall.Bind | task_manager.py:32 | Binding succeeds iff there are no more positional values than parameters and the keywords name exactly the remaining parameters. The values are bound in parameter order. Otherwise keyword errors come first: an unknown keyword is reported iff one exists. A keyword that repeats a positional value is reported iff every keyword names a parameter. Too many positional values are reported only when there are no keywords. A missing-arguments error names exactly the parameters after the positional ones that no keyword supplies. |
| PyCall.KeywordsCheckedFirst | task_manager.py:32 | With one parameter, two positional values and a keyword, the keyword is reported, unknown or duplicate. The count of positional values is not. |
| PyCall.RepeatedKeywordBeforeMissing | task_manager.py:32 | With parameters `a, b, c`, the call `f(x, a=v)` reports the repeated keyword, not the missing parameters. |
| TaskManager.ApplyWithDelay | task_manager.py:13-16 | The job's key holds `[callback, args, kwargs]` iff a callback was given, and None otherwise. The job is submitted with exactly the given task, positional arguments, keyword arguments and delay. |
| TaskManager.ApplyWithDelayFrame | task_manager.py:15-16 | Scheduling adds exactly the job's key, a new slot when the id is new. Every other key keeps its entry, and keys stay unique. |
| TaskManager.Poll | task_manager.py:24-33 | After a pass that does not crash, no finished job remains. Unfinished entries are kept unchanged. Every call is made to a finished job's stored callback with exactly its stored arguments. A raising call ends the pass: its slot and every later slot stay at the end of the table, unchanged and in order, and no job from that slot on was called (`CrashFacts`). |
| TaskManager.PollKeepsOrder | task_manager.py:25-33 | A pass that does not crash leaves exactly the unfinished slots, in their insertion order (`Unfinished`). `dict.pop` keeps the order of the other keys, and that order fixes which callback the next pass calls first. |
| TaskManager.PollCrashKeepsPrefix | task_manager.py:25-33 | A pass that crashes leaves the unfinished slots before the raising one, in order, then the raising slot and every slot after it (`CrashIndex` is the raising slot's position). |
| TaskManager.PollCrashesAtFirstRaise | task_manager.py:25-33 | A pass crashes at the first finished slot whose callback raises. Every finished slot with a callback before it had its callback called, and that call did not raise. |
| TaskManager.PollCallsDistinct | task_manager.py:25-33 | One pass calls each job's callback at most once. |
| TaskManager.PollCallsEveryFinished | task_manager.py:25-33 | A pass that does not crash calls the callback of every finished job that has one. |
| TaskManager.InvokedAtMostOnce | task_manager.py:29-33 | The next pass does not call a callback again, because its entry was removed after the call. |
| TaskManager.NeverCalledAgain | task_manager.py:24-34 | Over any number of later passes, with any job states, no callback that a completed pass called is called again, the raising call included (`CallsOverPasses`). |
| TaskManager.NoCallbackNoCall | task_manager.py:29-33 | An entry stored as None never causes a call and is removed once its job finishes. |
| TaskManager.DispatchAsWritten | task_manager.py:30-32 | The poller's call raises on a None keyword map, and otherwise on a None argument list. With both present the stored values are bound as they are. |
| TaskManager.DispatchWithResult | task_manager.py:32 | When the call with the job result in front binds, its first parameter receives the result. |
| Game.Start | main.py:194-219 | An existing user is not registered again and nothing changes. A new user is registered. Afterwards the user exists. |
| Game.StartTwice | main.py:200-212 | A second start answers "already registered" and changes nothing. |
| Game.PrestigeBuy | main.py:146-157 | Declines with no change iff currency < price(prestige), and fails for an unknown user. Otherwise it applies `prestige_up` once: prestige + 1, currency 1000 * (prestige + 1), income 0. |
| Game.FirstPrestigeAlwaysSucceeds | main.py:149 | A user at prestige 0 with a non-negative balance always prestiges. |
| Game.StartTask | main.py:78-113 | The three refusals return before any store call or scheduling. A missing task raises, also with no effect. Otherwise it makes exactly the calls debit `cost` and record the task, and it submits one job with delay `length * tick interval`. The completion callback is stored with `(user, task, query)`. |
| Game.StartTaskDebitsCostOnce | main.py:102 | A started task debits exactly its cost in total, and any other outcome debits nothing. |
| Game.StartTaskSchedulesOneJob | main.py:104-110 | Starting a task with a new job id adds exactly one pending job. |
| Game.CompletionNotices | main.py:115-123 | The callback always sends "task done" first, whatever `res` is. It sends a level-up message only when `res` is truthy and equal to a level of the table (`IntKey`). It raises, after the first message, exactly when `res` is truthy and `REWARD_DICT.get(res)` finds nothing. |
| Game.NonIntResults | main.py:119-121 | A falsy result of any type sends only "task done". A truthy object equal to level 5 behaves as the integer 5. A truthy object equal to no level raises. |
| Game.LevelUpNoticeShowsReward | main.py:119-122 | The level-up message reads back as exactly `REWARD_DICT[res]`. There are two messages exactly when `res` is truthy and nothing raised. |
| Game.CompletionCallAsWrittenRaises | main.py:104-116 | As scheduled, the completion call raises `TypeError`: the keyword map is None, and even an empty map would leave `callback` unbound. |
| Game.CompletionCallWithResultBinds | main.py:115-116 | With the job result passed first, the callback binds `res` to the result and receives the stored user, task and query. |
| Game.TickingAccrues | main.py:272-275 | After k iterations of the tick loop, each balance has grown by k times the user's income. Prestige and ownership are unchanged. |
| Migrations.ApplyFrom | tables.py:136-155 | Only non-empty, unrecorded `.sql` files are executed, in strictly ascending name order. Each one is recorded exactly once, right after it runs. Recorded and empty files are skipped, and empty files are not recorded. A completed run leaves every migration recorded. A raising script stops the run unrecorded. |
| Migrations.ApplyFromStopsAtFailure | tables.py:136-155 | When a script raises, every script that ran sorts strictly before it. Every unrecorded migration that did not run sorts at or after it. |
| Migrations.Migrate | tables.py:112-155 | If the database check and its creation both fail, nothing is executed or recorded. A newly created database starts with an empty record. |
| Migrations.MigrateIdempotent | tables.py:139-154 | A second run over the same files executes nothing and records nothing. |

## Left out

- The asyncpg connection plumbing, logging and the exception-logging decorator. The decorator only logs and re-raises, so raising is modelled as an error result or an unchanged state.
- Concurrency and atomicity. Handlers, the tick loop and the poller run concurrently, and the purchase's statements run without a transaction. Every operation is modelled as one sequential transition.
- 64-bit overflow of `BIGINT` columns. An overflowing tick would abort its whole statement; the model uses unbounded integers.
- Rows that break the schema's foreign keys (an ownership row for a missing user or building). The schema forbids them. `Ledger.Valid` states the invariant, and every transition preserves it.
- The defaults of `prestige`, `lvl` and `xp` for a new user come from migration scripts that are not part of this model. They are a parameter of registration.
- The helpers `can_afford`, `get_task`, `get_active_user_task`, `TaskStatus`, `start_task` of the task DAO, `update_currency`, `get_level` and the background job `start_user_task` are not part of this model. Their results are inputs, and their effects are recorded as calls (`Game.StoreCall`). `get_level` and experience updates appear only as recorded calls.
- The job backend. Job states are a snapshot map given to a pass, and the backend's job id is an input. Which callbacks raise is an input set. `task.forget()` and the ten-second sleep are not modelled.
- `apply_periodic`, the startup self-check in `main`, `celery_tasks.py`, `tasks.py` and the CLI and deprecated table commands of `tables.py`: these are foreign calls or I/O.
- Message texts, keyboards and the chat transport. Replies are outcome values.
- PyCall.Bind: when a call has both an unknown keyword and one that repeats a positional value, CPython reports whichever comes first in the keyword dict's insertion order. The model's keyword map has no order, so it reports the unknown keyword. The game's own submission passes no keywords for its callback.
- UserRepo.CurrencyTick and UserRepo.GetIncome are ghost: summing over a finite map needs a choice of element, so they cannot be compiled. This does not weaken what they state.
- Migrations.ApplyFrom and Migrations.Migrate are ghost for the same reason: they take the least remaining name of the directory map.

## Findings

| source | as written | input that shows it | evidently intended | confidence | as-written member | corrected member |
|---|---|---|---|---|---|---|
| task_manager.py:32 | `start_task` stores the completion callback with `args_for_callback=(id, task_id, callback)` and `kwargs_for_callback=None`. The poller calls `callback(*args, **kwargs)`, so `**None` raises `TypeError`. The stored arguments also omit the job result that the callback's first parameter `res` expects. The exception leaves `catch_results` and ends the poller. | Any started task whose job reaches SUCCESS or FAILURE. | Call `callback(result, *args, **kwargs)`, with a missing keyword map meaning none. `res` then receives the new level, or a falsy value. | high; not executed | Game.CompletionCallAsWrittenRaises | Game.CompletionCallWithResultBinds |

=== FILE: buildings_repo.dfy ===
/** The building catalog as a user sees it: incomes scaled by that user's prestige. */
module BuildingsRepo {
  import opened Wrappers
  import opened Ledger
  import UserRepo
  import UserRepoProps
  import LevelRewards

  /** The record `list_buildings` builds for each catalog row. */
  datatype BuildingView = BuildingView(id: BuildingId, cost: int, name: string, income: int)

  /** A NULL income fails the record's validation: `income` must be an integer. */
  datatype ViewError = IncomeIsNull

  /**
   * `list_buildings`: one record per catalog building, income multiplied by
   * the user's prestige. For an unknown user the prestige subquery is NULL,
   * so every row's income is NULL and the first record fails validation; an
   * empty catalog builds no record and so does not fail. The query has no
   * ORDER BY, so the result is keyed by building id rather than ordered.
   */
  function ListBuildings(s: Ledger, tid: TelegramId): (r: Result<map<BuildingId, BuildingView>, ViewError>)
    ensures r.Ok? <==> tid in s.users || s.buildings == map[]
    ensures r.Ok? ==> r.value.Keys == s.buildings.Keys
    ensures r.Ok? ==> forall b :: b in r.value ==>
      && r.value[b].id == b
      && r.value[b].cost == s.buildings[b].cost
      && r.value[b].name == s.buildings[b].name
    ensures r.Ok? ==> forall b :: b in r.value ==> r.value[b].income == s.buildings[b].income * s.users[tid].prestige
  {
    if tid in s.users then
      var p := s.users[tid].prestige;
      Ok(map b | b in s.buildings :: BuildingView(b, s.buildings[b].cost, s.buildings[b].name, s.buildings[b].income * p))
    else if s.buildings == map[] then Ok(map[])
    else Err(IncomeIsNull)
  }

  /** `get_building_name`: the stored name, NULL for an unknown id. */
  function GetBuildingName(s: Ledger, id: BuildingId): (r: Option<string>)
    ensures r.Some? <==> id in s.buildings
    ensures r.Some? ==> r.value == s.buildings[id].name
  {
    if id in s.buildings then Some(s.buildings[id].name) else None
  }

  /** Before the first prestige every listed income is zero. */
  lemma ListedIncomeZeroAtPrestigeZero(s: Ledger, tid: TelegramId)
    requires tid in s.users && s.users[tid].prestige == 0
    ensures forall b :: b in ListBuildings(s, tid).value ==> ListBuildings(s, tid).value[b].income == 0
  {
  }

  /**
   * The income shown next to a building is exactly what buying one more of
   * it adds to the user's income per tick.
   */
  lemma ListedIncomeIsPurchaseGain(s: Ledger, tid: TelegramId, bid: BuildingId)
    requires UserRepo.BuyBuilding(s, tid, bid).bought
    ensures bid in ListBuildings(s, tid).value
    ensures UserRepo.GetIncome(UserRepo.BuyBuilding(s, tid, bid).ledger, tid)
         == UserRepo.GetIncome(s, tid) + ListBuildings(s, tid).value[bid].income
  {
    UserRepoProps.BuyRaisesIncome(s, tid, bid);
  }

  /** The name lookup and the listing agree: a listed building is named as in the listing, and only listed buildings have a name. */
  lemma NameAgreesWithListing(s: Ledger, tid: TelegramId, id: BuildingId)
    requires ListBuildings(s, tid).Ok?
    ensures GetBuildingName(s, id).Some? <==> id in ListBuildings(s, tid).value
    ensures GetBuildingName(s, id).Some? ==> GetBuildingName(s, id).value == ListBuildings(s, tid).value[id].name
  {
  }

  /**
   * No game transition renames a building, so the name reported after a
   * purchase, bought or declined, is the catalog's name from before it.
   */
  lemma NameStable(s: Ledger, tid: TelegramId, bid: BuildingId, id: BuildingId, d: UserRepo.ColumnDefaults, r: LevelRewards.Reward)
    ensures GetBuildingName(UserRepo.BuyBuilding(s, tid, bid).ledger, id) == GetBuildingName(s, id)
    ensures GetBuildingName(UserRepo.PrestigeUp(s, tid), id) == GetBuildingName(s, id)
    ensures GetBuildingName(UserRepo.CurrencyTick(s), id) == GetBuildingName(s, id)
    ensures GetBuildingName(LevelRewards.Apply(r, s, tid), id) == GetBuildingName(s, id)
    ensures UserRepo.RegisterUser(s, tid, d).Ok? ==> GetBuildingName(UserRepo.RegisterUser(s, tid, d).value, id) == GetBuildingName(s, id)
  {
  }
}

=== FILE: decimal.dfy ===
/**
 * Decimal rendering of integers, as Python's `str(int)` and f-string
 * interpolation produce it for ordinary magnitudes (Python's cap on the
 * digit count of such a conversion is not modelled), together with the
 * parser that inverts it.
 */
module Decimal {
  import opened Wrappers

  predicate IsDigit(c: char) {
    '0' <= c <= '9'
  }

  predicate AllDigits(s: string) {
    forall i :: 0 <= i < |s| ==> IsDigit(s[i])
  }

  function DigitChar(d: nat): (c: char)
    requires d < 10
    ensures IsDigit(c)
  {
    (('0' as int) + d) as char
  }

  function DigitValue(c: char): (d: nat)
    requires IsDigit(c)
    ensures d < 10
  {
    (c as int) - ('0' as int)
  }

  /** The shortest decimal spelling of `n`: no sign, no leading zero. */
  function NatToString(n: nat): (s: string)
    ensures |s| >= 1 && AllDigits(s)
    ensures s[0] == '0' ==> n == 0
    decreases n
  {
    if n < 10 then [DigitChar(n)] else NatToString(n / 10) + [DigitChar(n % 10)]
  }

  function ParseDigits(s: string): nat
    requires AllDigits(s)
  {
    if s == [] then 0 else ParseDigits(s[..|s| - 1]) * 10 + DigitValue(s[|s| - 1])
  }

  /** Python's `str(n)`: a minus sign before the magnitude of a negative number. */
  function IntToString(n: int): (s: string)
    ensures |s| >= 1
    ensures n < 0 <==> s[0] == '-'
  {
    if n < 0 then "-" + NatToString(-n) else NatToString(n)
  }

  /** Reads back a string of the shape `IntToString` produces; `None` for anything else. */
  function ParseInt(s: string): Option<int> {
    if |s| >= 2 && s[0] == '-' && AllDigits(s[1..]) then
      var magnitude: int := ParseDigits(s[1..]); Some(-magnitude)
    else if |s| >= 1 && AllDigits(s) then Some(ParseDigits(s))
    else None
  }

  lemma {:induction false} NatRoundTrip(n: nat)
    ensures ParseDigits(NatToString(n)) == n
    decreases n
  {
    if n >= 10 {
      var s := NatToString(n);
      NatRoundTrip(n / 10);
      assert s[..|s| - 1] == NatToString(n / 10);
    }
  }

  /** Rendering then parsing gives back the number. */
  lemma IntRoundTrip(n: int)
    ensures ParseInt(IntToString(n)) == Some(n)
  {
    var s := IntToString(n);
    if n < 0 {
      var m := NatToString(-n);
      assert s[1..] == m;
      NatRoundTrip(-n);
      var magnitude: int := ParseDigits(m);
      assert ParseInt(s) == Some(-magnitude);
    } else {
      assert s == NatToString(n) && s[0] != '-';
      NatRoundTrip(n);
    }
  }

  /** Two numbers with the same rendering are equal. */
  lemma IntToStringInjective(a: int, b: int)
    requires IntToString(a) == IntToString(b)
    ensures a == b
  {
    IntRoundTrip(a);
    IntRoundTrip(b);
  }
}

=== FILE: game.dfy ===
/**
 * The decision logic of the bot's handlers: registration on start, the
 * prestige purchase, starting a timed task, the task-completion callback
 * and the currency-tick loop. Messages and keyboards are left out; each
 * handler's reply is an outcome value.
 */
module Game {
  import opened Wrappers
  import opened Ledger
  import opened PyCall
  import UserRepo
  import UserRepoProps
  import Settings
  import LevelRewards
  import TasksRepo
  import TaskManager

  datatype StartOutcome = AlreadyRegistered | Registered

  datatype StartReply = StartReply(outcome: StartOutcome, ledger: Ledger)

  /** `start`: register the sender unless a row for them already exists. */
  function Start(s: Ledger, tid: TelegramId, d: UserRepo.ColumnDefaults): (r: StartReply)
    ensures r.outcome == AlreadyRegistered <==> UserRepo.CheckUser(s, tid)
    ensures r.outcome == AlreadyRegistered ==> r.ledger == s
    ensures r.outcome == Registered ==> r.ledger == UserRepo.RegisterUser(s, tid, d).value
    ensures UserRepo.CheckUser(r.ledger, tid)
  {
    if UserRepo.CheckUser(s, tid) then StartReply(AlreadyRegistered, s)
    else StartReply(Registered, UserRepo.RegisterUser(s, tid, d).value)
  }

  /** A second start never registers again and changes nothing. */
  lemma StartTwice(s: Ledger, tid: TelegramId, d: UserRepo.ColumnDefaults, d2: UserRepo.ColumnDefaults)
    ensures Start(Start(s, tid, d).ledger, tid, d2).outcome == AlreadyRegistered
    ensures Start(Start(s, tid, d).ledger, tid, d2).ledger == Start(s, tid, d).ledger
  {
  }

  datatype PrestigeOutcome = CannotAfford | Prestiged

  datatype PrestigeReply = PrestigeReply(outcome: PrestigeOutcome, ledger: Ledger)

  /** An unknown user's prestige is None, and pricing None raises. */
  datatype HandlerError = UnknownUser

  /** `prestige_buy`: decline below the price, otherwise run `prestige_up` once. */
  function PrestigeBuy(s: Ledger, tid: TelegramId): (r: Result<PrestigeReply, HandlerError>)
    ensures r.Err? <==> tid !in s.users
    ensures r.Ok? && r.value.outcome == CannotAfford <==>
      tid in s.users && s.users[tid].currency < Settings.PrestigePrice(s.users[tid].prestige)
    ensures r.Ok? && r.value.outcome == CannotAfford ==> r.value.ledger == s
    ensures r.Ok? && r.value.outcome == Prestiged ==> r.value.ledger == UserRepo.PrestigeUp(s, tid)
    ensures r.Ok? && r.value.outcome == Prestiged ==>
      && r.value.ledger.users[tid].prestige == s.users[tid].prestige + 1
      && r.value.ledger.users[tid].currency == 1000 * (s.users[tid].prestige + 1)
      && UserRepo.GetIncome(r.value.ledger, tid) == 0
  {
    match (UserRepo.GetPrestige(s, tid), UserRepo.GetCurrency(s, tid))
    case (Some(prestige), Some(cur)) =>
      if cur < Settings.PrestigePrice(prestige) then Ok(PrestigeReply(CannotAfford, s))
      else
        var t := UserRepo.PrestigeUp(s, tid);
        UserRepoProps.PrestigeIncome(s, tid);
        Ok(PrestigeReply(Prestiged, t))
    case _ => Err(UnknownUser)
  }

  /** A user who has never prestiged and is not in debt can always prestige. */
  lemma FirstPrestigeAlwaysSucceeds(s: Ledger, tid: TelegramId)
    requires tid in s.users && s.users[tid].prestige == 0 && s.users[tid].currency >= 0
    ensures PrestigeBuy(s, tid).Ok? && PrestigeBuy(s, tid).value.outcome == Prestiged
  {
    Settings.FirstPrestigeAffordable(s.users[tid].currency);
  }

  /** The verdict of the task-affordability helper; values other than the three refusals let the task start. */
  datatype TaskStatus = NotEnoughMoney | InsufficientLevel | AlreadyExecuted | OtherStatus(code: int)

  predicate IsRefusal(status: TaskStatus) {
    status == NotEnoughMoney || status == InsufficientLevel || status == AlreadyExecuted
  }

  /** The calls into helpers outside this model that change the store. */
  datatype StoreCall = UpdateCurrency(user: TelegramId, delta: int) | StartUserTask(user: TelegramId, task: TaskId)

  /** `Refused` for the three refusals; `MissingTask` when the task lookup found nothing and reading its cost raised. */
  datatype StartTaskOutcome = Refused(status: TaskStatus) | MissingTask | TaskStarted

  datatype StartTaskStep = StartTaskStep(
    outcome: StartTaskOutcome,
    calls: seq<StoreCall>,
    submitted: Option<TaskManager.Submission>,
    jobs: TaskManager.JobTable)

  /** The completion callback's name and parameters (after `self`). */
  const CompletionCallback: TaskManager.CallbackId := "callback_for_completed_user_tasks"
  const CompletionParams: seq<string> := ["res", "telegram_id", "task_id", "callback"]

  /** The background job that runs a user task. */
  const UserTaskJob: string := "start_user_task"

  /**
   * `start_task`. The task record and the status come from helpers outside
   * this model (`get_task`, `can_afford`), `job` is the identity the job
   * backend gives the submission and `query` is the chat callback object.
   */
  function StartTask(
    jobs: TaskManager.JobTable, tid: TelegramId, taskId: TaskId,
    task: Option<TasksRepo.TaskView>, status: TaskStatus, tickInterval: int,
    job: TaskManager.JobId, query: Value): (r: StartTaskStep)
    ensures IsRefusal(status) ==> r == StartTaskStep(Refused(status), [], None, jobs)
    ensures !IsRefusal(status) && task.None? ==> r == StartTaskStep(MissingTask, [], None, jobs)
    ensures r.outcome == TaskStarted <==> !IsRefusal(status) && task.Some?
    ensures r.outcome == TaskStarted ==>
      && r.calls == [UpdateCurrency(tid, -task.value.cost), StartUserTask(tid, taskId)]
      && r.submitted.Some?
      && r.submitted.value.job == job
      && r.submitted.value.task == UserTaskJob
      && r.submitted.value.delay == task.value.length * tickInterval
      && r.submitted.value.args == Some([IntVal(tid), IntVal(taskId)])
      && TaskManager.Lookup(r.jobs, job) ==
           Some(Some(TaskManager.Entry(CompletionCallback, Some([IntVal(tid), IntVal(taskId), query]), None)))
    ensures forall j :: j != job ==> TaskManager.Lookup(r.jobs, j) == TaskManager.Lookup(jobs, j)
  {
    if IsRefusal(status) then StartTaskStep(Refused(status), [], None, jobs)
    else if task.None? then StartTaskStep(MissingTask, [], None, jobs)
    else
      var t := task.value;
      var applied := TaskManager.ApplyWithDelay(
        jobs, job, UserTaskJob, t.length * tickInterval,
        Some([IntVal(tid), IntVal(taskId)]), None,
        Some(CompletionCallback), Some([IntVal(tid), IntVal(taskId), query]), None);
      StartTaskStep(TaskStarted, [UpdateCurrency(tid, -t.cost), StartUserTask(tid, taskId)], Some(applied.submitted), applied.table)
  }

  /** How much a step debits through `update_currency`. */
  function Debited(calls: seq<StoreCall>): int {
    if calls == [] then 0
    else (match calls[0] case UpdateCurrency(_, delta) => -delta case StartUserTask(_, _) => 0) + Debited(calls[1..])
  }

  /** A started task is paid for exactly once, by its cost; a refused one costs nothing. */
  lemma StartTaskDebitsCostOnce(
    jobs: TaskManager.JobTable, tid: TelegramId, taskId: TaskId,
    task: Option<TasksRepo.TaskView>, status: TaskStatus, tickInterval: int,
    job: TaskManager.JobId, query: Value)
    ensures var r := StartTask(jobs, tid, taskId, task, status, tickInterval, job, query);
      Debited(r.calls) == (if r.outcome == TaskStarted then task.value.cost else 0)
  {
    var r := StartTask(jobs, tid, taskId, task, status, tickInterval, job, query);
    if r.outcome == TaskStarted {
      assert r.calls[1..][1..] == [];
      assert Debited(r.calls[1..]) == 0;
    }
  }

  /** Starting a task adds exactly one job to the manager when the backend hands out a new identity. */
  lemma StartTaskSchedulesOneJob(
    jobs: TaskManager.JobTable, tid: TelegramId, taskId: TaskId,
    task: TasksRepo.TaskView, status: TaskStatus, tickInterval: int,
    job: TaskManager.JobId, query: Value)
    requires !IsRefusal(status) && job !in TaskManager.Jobs(jobs)
    ensures |StartTask(jobs, tid, taskId, Some(task), status, tickInterval, job, query).jobs| == |jobs| + 1
  {
  }

  /** What the completion callback tells the user. */
  datatype Notice = TaskDone | LevelUp(reward: string)

  /** `REWARD_DICT.get(res)` found nothing and `.to_user()` was called on None. */
  datatype CallbackError = NoRewardForLevel

  /** The messages the callback sent, in order, and the error it raised after them, if any. */
  datatype CallbackRun = CallbackRun(notices: seq<Notice>, error: Option<CallbackError>)

  /**
   * The body of `callback_for_completed_user_tasks`: "task done" is sent
   * first, whatever `res` is; when `res` is truthy, the reward `REWARD_DICT`
   * holds under `res` follows, and a truthy `res` under which the table holds
   * nothing raises after the first message.
   */
  function CompletionNotices(res: Value): (r: CallbackRun)
    ensures |r.notices| >= 1 && r.notices[0] == TaskDone
    ensures r.error.Some? <==> Truthy(res) && !(IntKey(res).Some? && 0 <= IntKey(res).value < LevelRewards.Levels)
    ensures r.error.Some? || !Truthy(res) ==> r.notices == [TaskDone]
    ensures Truthy(res) && IntKey(res).Some? && 0 <= IntKey(res).value < LevelRewards.Levels ==>
      r == CallbackRun([TaskDone, LevelUp(LevelRewards.ToUser(LevelRewards.Currency(LevelRewards.AmountPerLevel * IntKey(res).value)))], None)
  {
    if !Truthy(res) then CallbackRun([TaskDone], None)
    else
      match IntKey(res)
      case Some(level) =>
        (match LevelRewards.RewardFor(level)
         case Some(reward) => CallbackRun([TaskDone, LevelUp(LevelRewards.ToUser(reward))], None)
         case None => CallbackRun([TaskDone], Some(NoRewardForLevel)))
      case None => CallbackRun([TaskDone], Some(NoRewardForLevel))
  }

  /** The level-up message names exactly the table's reward for the new level: reading it back gives `REWARD_DICT[res]`. */
  lemma LevelUpNoticeShowsReward(res: Value)
    ensures var r := CompletionNotices(res);
      |r.notices| == 2 <==> Truthy(res) && r.error.None?
    ensures var r := CompletionNotices(res);
      forall k :: 1 <= k < |r.notices| ==>
        IntKey(res).Some? && r.notices[k].LevelUp?
        && LevelRewards.ParseReward(r.notices[k].reward) == LevelRewards.RewardFor(IntKey(res).value)
  {
    if Truthy(res) && IntKey(res).Some? && 0 <= IntKey(res).value < LevelRewards.Levels {
      LevelRewards.ToUserRoundTrip(LevelRewards.RewardFor(IntKey(res).value).value);
    }
  }

  /**
   * A result that is not an `int` follows Python's rules too: a falsy one
   * (`0.0`, `""`, `[]`) sends only "task done", and one equal to a level
   * (`5.0`) is found under that level.
   */
  lemma NonIntResults(ref: nat)
    ensures CompletionNotices(Obj(ref, false, Some(0))) == CallbackRun([TaskDone], None)
    ensures CompletionNotices(Obj(ref, false, None)) == CallbackRun([TaskDone], None)
    ensures CompletionNotices(Obj(ref, true, Some(5))) == CompletionNotices(IntVal(5))
    ensures CompletionNotices(Obj(ref, true, None)).error == Some(NoRewardForLevel)
  {
  }

  /**
   * As written, the poller calls the completion callback with the stored
   * `(telegram_id, task_id, callback)` and a keyword map of None: `**None`
   * raises before the callback runs, and even an empty keyword map would
   * leave the fourth parameter unbound.
   */
  lemma CompletionCallAsWrittenRaises(
    jobs: TaskManager.JobTable, tid: TelegramId, taskId: TaskId,
    task: TasksRepo.TaskView, status: TaskStatus, tickInterval: int,
    job: TaskManager.JobId, query: Value)
    requires !IsRefusal(status)
    ensures var e := TaskManager.Lookup(StartTask(jobs, tid, taskId, Some(task), status, tickInterval, job, query).jobs, job).value.value;
      && TaskManager.DispatchAsWritten(TaskManager.CallFor(job, e), CompletionParams) == Err(DoubleStarArgNotMapping)
      && Bind(CompletionParams, Call(e.args.value, map[])) == Err(MissingArguments(["callback"]))
  {
    var e := TaskManager.Entry(CompletionCallback, Some([IntVal(tid), IntVal(taskId), query]), None);
    assert Unsupplied(CompletionParams[3..], map[]) == ["callback"];
  }

  /**
   * Called as intended, with the job's result in front of the stored
   * arguments, the callback receives `res` = the result and the user, task
   * and chat callback it was scheduled for.
   */
  lemma CompletionCallWithResultBinds(
    jobs: TaskManager.JobTable, tid: TelegramId, taskId: TaskId,
    task: TasksRepo.TaskView, status: TaskStatus, tickInterval: int,
    job: TaskManager.JobId, query: Value, result: Value)
    requires !IsRefusal(status)
    ensures var e := TaskManager.Lookup(StartTask(jobs, tid, taskId, Some(task), status, tickInterval, job, query).jobs, job).value.value;
      TaskManager.DispatchWithResult(TaskManager.CallFor(job, e), result, CompletionParams)
        == Ok([result, IntVal(tid), IntVal(taskId), query])
  {
    var e := TaskManager.Lookup(StartTask(jobs, tid, taskId, Some(task), status, tickInterval, job, query).jobs, job).value.value;
    assert e == TaskManager.Entry(CompletionCallback, Some([IntVal(tid), IntVal(taskId), query]), None);
    assert [result] + e.args.value == [result, IntVal(tid), IntVal(taskId), query];
    var c := Call([result, IntVal(tid), IntVal(taskId), query], map[]);
    var r := Bind(CompletionParams, c);
    assert r.Ok?;
    assert r.value == c.args;
  }

  /** `currency_ticking` after `k` iterations of its loop: one tick each. */
  ghost function Ticking(s: Ledger, k: nat): Ledger
    decreases k
  {
    if k == 0 then s else Ticking(UserRepo.CurrencyTick(s), k - 1)
  }

  /** After `k` iterations every balance has grown by `k` times the user's income, and nothing else has changed. */
  lemma {:induction false} TickingAccrues(s: Ledger, k: nat, u: TelegramId)
    requires u in s.users
    ensures u in Ticking(s, k).users
    ensures Ticking(s, k).users[u].currency == s.users[u].currency + k * UserRepo.GetIncome(s, u)
    ensures Ticking(s, k).users[u].prestige == s.users[u].prestige
    ensures Ticking(s, k).owned == s.owned && Ticking(s, k).buildings == s.buildings
    decreases k
  {
    if k > 0 {
      var t := UserRepo.CurrencyTick(s);
      UserRepoProps.TickKeepsIncome(s, u);
      TickingAccrues(t, k - 1, u);
      assert (k - 1) * UserRepo.GetIncome(s, u) + UserRepo.GetIncome(s, u) == k * UserRepo.GetIncome(s, u);
    }
  }
}

=== FILE: ledger.dfy ===
/**
 * The economy ledger: the `users`, `buildings`, `users_buildings` and
 * `user_tasks` tables as immutable maps, and the passive income a user's
 * buildings produce per tick.
 *
 * Rows are keyed by the user's telegram id; the tables' surrogate `users.id`
 * is in one-to-one correspondence with the unique telegram id, so nothing is
 * lost by joining on the telegram id directly.
 */
module Ledger {

  type TelegramId = int
  type BuildingId = int
  type TaskId = int

  /** A row of `users`. `lvl` and `xp` belong to the progression helpers and are carried unchanged by this model. */
  datatype User = User(currency: int, prestige: nat, lvl: int, xp: int)

  /** A row of `buildings`: read-only catalog entry. */
  datatype Building = Building(cost: int, income: int, name: string)

  /** A row of `user_tasks`: read-only catalog entry. */
  datatype TaskDef = TaskDef(name: string, reward: int, expReward: int, lvlRequired: int, cost: int, length: int)

  /** The key of `users_buildings`, unique per (user, building). */
  datatype Holding = Holding(user: TelegramId, building: BuildingId)

  datatype Ledger = Ledger(
    users: map<TelegramId, User>,
    buildings: map<BuildingId, Building>,
    owned: map<Holding, nat>,
    tasks: map<TaskId, TaskDef>)

  /** The schema's foreign keys, and a stored count is at least one. */
  predicate Valid(s: Ledger) {
    forall h :: h in s.owned ==> h.user in s.users && h.building in s.buildings && s.owned[h] >= 1
  }

  /** How many of `building` `user` owns; an absent row means none. */
  function Count(s: Ledger, h: Holding): nat {
    if h in s.owned then s.owned[h] else 0
  }

  /** The rows of `users_buildings` that belong to `user`. */
  function HoldingsOf(s: Ledger, user: TelegramId): set<Holding> {
    set h | h in s.owned && h.user == user
  }

  /** One row's share of a tick: count * income * prestige (zero for a row the foreign keys exclude). */
  function RowIncome(s: Ledger, h: Holding): int {
    if h in s.owned && h.building in s.buildings && h.user in s.users
    then s.owned[h] * s.buildings[h.building].income * s.users[h.user].prestige
    else 0
  }

  ghost function SumIncome(s: Ledger, hs: set<Holding>): int
    decreases hs
  {
    if hs == {} then 0
    else
      var h :| h in hs;
      RowIncome(s, h) + SumIncome(s, hs - {h})
  }

  /** A user's income per tick: the sum of their rows' shares, zero when they own nothing. */
  ghost function Income(s: Ledger, user: TelegramId): int {
    SumIncome(s, HoldingsOf(s, user))
  }

  /** The sum does not depend on which row is taken out first. */
  lemma {:induction false} SumIncomeRemove(s: Ledger, hs: set<Holding>, h: Holding)
    requires h in hs
    ensures SumIncome(s, hs) == RowIncome(s, h) + SumIncome(s, hs - {h})
    decreases hs
  {
    var k :| k in hs && SumIncome(s, hs) == RowIncome(s, k) + SumIncome(s, hs - {k});
    if k != h {
      SumIncomeRemove(s, hs - {k}, h);
      SumIncomeRemove(s, hs - {h}, k);
      assert hs - {k} - {h} == hs - {h} - {k};
    }
  }

  /** Two ledgers that agree on every row's share agree on the sum. */
  lemma {:induction false} SumIncomeFrame(s: Ledger, t: Ledger, hs: set<Holding>)
    requires forall h :: h in hs ==> RowIncome(s, h) == RowIncome(t, h)
    ensures SumIncome(s, hs) == SumIncome(t, hs)
    decreases hs
  {
    if hs != {} {
      var h :| h in hs;
      SumIncomeRemove(s, hs, h);
      SumIncomeRemove(t, hs, h);
      SumIncomeFrame(s, t, hs - {h});
    }
  }

  /** With non-negative base incomes every income is non-negative. */
  lemma {:induction false} SumIncomeNonNegative(s: Ledger, hs: set<Holding>)
    requires forall b :: b in s.buildings ==> s.buildings[b].income >= 0
    ensures SumIncome(s, hs) >= 0
    decreases hs
  {
    if hs != {} {
      var h :| h in hs;
      SumIncomeRemove(s, hs, h);
      SumIncomeNonNegative(s, hs - {h});
      if h in s.owned && h.building in s.buildings && h.user in s.users {
        var c, i, p := s.owned[h], s.buildings[h.building].income, s.users[h.user].prestige;
        assert c * i >= 0;
        assert c * i * p >= 0;
      }
    }
  }

  /**
   * A user's income depends only on their own rows, the catalog and their
   * prestige: a change elsewhere in the ledger leaves it as it was.
   */
  lemma IncomeFrame(s: Ledger, t: Ledger, user: TelegramId)
    requires HoldingsOf(s, user) == HoldingsOf(t, user)
    requires forall h :: h in HoldingsOf(s, user) ==> s.owned[h] == t.owned[h]
    requires s.buildings == t.buildings
    requires user in s.users <==> user in t.users
    requires user in s.users ==> s.users[user].prestige == t.users[user].prestige
    ensures Income(s, user) == Income(t, user)
  {
    SumIncomeFrame(s, t, HoldingsOf(s, user));
  }
}

=== FILE: level_rewards.dfy ===
/** Level-up rewards: the reward kinds and the table from level to reward. */
module LevelRewards {
  import opened Wrappers
  import opened Ledger
  import Decimal
  import UserRepo

  /** The reward kinds; currency is the only one the game defines. */
  datatype Reward = Currency(amount: int)

  /** How many levels the table covers. */
  const Levels: nat := 100

  /** Currency granted per level. */
  const AmountPerLevel: nat := 2000

  /** `REWARD_DICT`: level i, for i in 0 .. 99, rewards `Currency(i * 2000)`. */
  const RewardTable: map<int, Reward> := map i | 0 <= i < Levels :: Currency(i * AmountPerLevel)

  /** `REWARD_DICT.get(level)`. */
  function RewardFor(level: int): (r: Option<Reward>)
    ensures r.Some? <==> 0 <= level < Levels
    ensures r.Some? ==> r.value == Currency(AmountPerLevel * level)
  {
    if level in RewardTable then Some(RewardTable[level]) else None
  }

  /** `to_user`: the amount in decimal followed by a dollar sign. */
  function ToUser(r: Reward): (text: string)
    ensures |text| >= 2 && text[|text| - 1] == '$'
  {
    match r
    case Currency(amount) => Decimal.IntToString(amount) + "$"
  }

  /** Reads the amount back out of a rendered reward. */
  function ParseReward(text: string): Option<Reward> {
    if |text| >= 1 && text[|text| - 1] == '$' then
      match Decimal.ParseInt(text[..|text| - 1])
      case Some(n) => Some(Currency(n))
      case None => None
    else None
  }

  /**
   * Applying the statement `to_sql` produces for user `tid`: that user's
   * balance grows by the amount; an unknown id matches no row.
   */
  function Apply(r: Reward, s: Ledger, tid: TelegramId): (t: Ledger)
    ensures t.users.Keys == s.users.Keys
    ensures tid in s.users ==> t.users[tid].currency == s.users[tid].currency + r.amount
    ensures tid in s.users ==> t.users[tid] == s.users[tid].(currency := t.users[tid].currency)
    ensures forall u :: u in s.users && u != tid ==> t.users[u] == s.users[u]
    ensures t.owned == s.owned && t.buildings == s.buildings && t.tasks == s.tasks
  {
    match r
    case Currency(amount) =>
      if tid in s.users then s.(users := s.users[tid := s.users[tid].(currency := s.users[tid].currency + amount)])
      else s
  }

  /** The rendered reward determines the reward. */
  lemma ToUserRoundTrip(r: Reward)
    ensures ParseReward(ToUser(r)) == Some(r)
  {
    var text := ToUser(r);
    assert text[..|text| - 1] == Decimal.IntToString(r.amount);
    Decimal.IntRoundTrip(r.amount);
  }

  /** Higher levels pay strictly more. */
  lemma RewardsIncrease(i: int, j: int)
    requires 0 <= i < j < Levels
    ensures RewardFor(i).value.amount < RewardFor(j).value.amount
  {
  }

  /** The reward for level 0 is nothing. */
  lemma LevelZeroPaysNothing()
    ensures RewardFor(0) == Some(Currency(0))
  {
  }

  /** A reward changes a balance only, so every user's income per tick stays as it was. */
  lemma ApplyKeepsIncome(r: Reward, s: Ledger, tid: TelegramId, u: TelegramId)
    ensures UserRepo.GetIncome(Apply(r, s, tid), u) == UserRepo.GetIncome(s, u)
  {
    IncomeFrame(s, Apply(r, s, tid), u);
  }

  /** Granting a reward and a currency tick commute: the order of the two updates does not matter. */
  lemma ApplyCommutesWithTick(r: Reward, s: Ledger, tid: TelegramId)
    ensures UserRepo.CurrencyTick(Apply(r, s, tid)) == Apply(r, UserRepo.CurrencyTick(s), tid)
  {
    var a := Apply(r, s, tid);
    var left := UserRepo.CurrencyTick(a);
    var right := Apply(r, UserRepo.CurrencyTick(s), tid);
    forall u | u in s.users
      ensures left.users[u] == right.users[u]
    {
      IncomeFrame(s, a, u);
    }
    assert left.users == right.users;
  }
}

=== FILE: migrations.dfy ===
/**
 * The migration runner: which files of the migrations directory it
 * executes, in which order, and what it records in the `migrations` table.
 * The directory is a map from file name to contents; executing a script is
 * outside the model, except that the scripts in `failing` raise.
 */
module Migrations {
  import opened Strings

  /** Only files with this suffix are migrations. */
  const Suffix: string := ".sql"

  /** `Completed`: every file was looked at; `NoDatabase`: the database check and its creation both failed; `ScriptFailed`: a script raised and the run stopped. */
  datatype RunOutcome = Completed | NoDatabase | ScriptFailed(name: string)

  /** The scripts executed, in order, the `migrations` table afterwards, and how the run ended. */
  datatype MigrationRun = MigrationRun(executed: seq<string>, recorded: seq<string>, outcome: RunOutcome)

  /** Strictly increasing in Python's string order. */
  predicate Ascending(names: seq<string>) {
    forall i, j :: 0 <= i < j < |names| ==> Below(names[i], names[j]) && names[i] != names[j]
  }

  /** A file the runner has to apply: a non-empty `.sql` file. */
  predicate IsMigration(dir: map<string, string>, name: string) {
    name in dir && EndsWith(name, Suffix) && dir[name] != ""
  }

  /**
   * The loop over `sorted(os.listdir(...))` against the table `recorded`:
   * a non-`.sql` name is ignored, a recorded name is skipped, an empty file
   * is skipped without being recorded, any other file is executed and then
   * recorded. A script that raises ends the run where it stands.
   */
  ghost function ApplyFrom(dir: map<string, string>, recorded: seq<string>, failing: set<string>): (r: MigrationRun)
    ensures r.recorded == recorded + r.executed
    ensures Ascending(r.executed)
    ensures forall n :: n in r.executed ==> IsMigration(dir, n) && n !in recorded && n !in failing
    ensures r.outcome.Completed? ==> forall n :: IsMigration(dir, n) ==> n in r.recorded
    ensures r.outcome.ScriptFailed? ==> var n := r.outcome.name;
      IsMigration(dir, n) && n in failing && n !in r.recorded
    ensures !r.outcome.NoDatabase?
    ensures (forall n :: IsMigration(dir, n) ==> n in recorded) ==> r == MigrationRun([], recorded, Completed)
    decreases |dir|
  {
    if dir == map[] then MigrationRun([], recorded, Completed)
    else
      var n := Least(dir.Keys);
      var rest := dir - {n};
      if !EndsWith(n, Suffix) || n in recorded || dir[n] == "" then ApplyFrom(rest, recorded, failing)
      else if n in failing then MigrationRun([], recorded, ScriptFailed(n))
      else
        var after := ApplyFrom(rest, recorded + [n], failing);
        AscendingCons(n, after.executed);
        MigrationRun([n] + after.executed, after.recorded, after.outcome)
  }

  /** A name below every name of an ascending list extends it. */
  lemma AscendingCons(n: string, names: seq<string>)
    requires Ascending(names)
    requires forall m :: m in names ==> Below(n, m) && m != n
    ensures Ascending([n] + names)
  {
    var all := [n] + names;
    forall i, j | 0 <= i < j < |all|
      ensures Below(all[i], all[j]) && all[i] != all[j]
    {
      assert all[j] == names[j - 1];
      if i > 0 {
        assert all[i] == names[i - 1];
      } else {
        assert names[j - 1] in names;
      }
    }
  }

  /**
   * A raising script ends the run where it stands: every script that ran
   * sorts strictly before it, and every unrecorded migration that did not
   * run sorts at or after it.
   */
  lemma {:induction false} ApplyFromStopsAtFailure(dir: map<string, string>, recorded: seq<string>, failing: set<string>)
    requires ApplyFrom(dir, recorded, failing).outcome.ScriptFailed?
    ensures var r := ApplyFrom(dir, recorded, failing);
      && (forall m :: m in r.executed ==> Below(m, r.outcome.name) && m != r.outcome.name)
      && (forall m :: IsMigration(dir, m) && m !in recorded && m !in r.executed ==> Below(r.outcome.name, m))
    decreases |dir|
  {
    var n := Least(dir.Keys);
    var rest := dir - {n};
    if !EndsWith(n, Suffix) || n in recorded || dir[n] == "" {
      ApplyFromStopsAtFailure(rest, recorded, failing);
      assert forall m :: IsMigration(dir, m) && m !in recorded ==> IsMigration(rest, m);
    } else if n !in failing {
      var after := ApplyFrom(rest, recorded + [n], failing);
      ApplyFromStopsAtFailure(rest, recorded + [n], failing);
      assert IsMigration(rest, after.outcome.name);
      assert forall m :: IsMigration(dir, m) && m != n ==> IsMigration(rest, m);
    }
  }

  /**
   * `migrate`: when the database check fails it tries to create the
   * database and gives up if that fails too; a newly created database has
   * an empty `migrations` table.
   */
  ghost function Migrate(databaseReady: bool, createSucceeds: bool, dir: map<string, string>, recorded: seq<string>, failing: set<string>): (r: MigrationRun)
    ensures !databaseReady && !createSucceeds ==> r.executed == [] && r.recorded == recorded && r.outcome == NoDatabase
    ensures databaseReady ==> r.recorded == recorded + r.executed
    ensures !databaseReady && createSucceeds ==> r.recorded == r.executed
    ensures forall n :: n in r.executed ==> IsMigration(dir, n) && n !in failing
    ensures databaseReady ==> forall n :: n in r.executed ==> n !in recorded
    ensures r.outcome.Completed? ==> forall n :: IsMigration(dir, n) ==> n in r.recorded
    ensures r.outcome.ScriptFailed? ==> IsMigration(dir, r.outcome.name) && r.outcome.name in failing && r.outcome.name !in r.recorded
  {
    if databaseReady then ApplyFrom(dir, recorded, failing)
    else if createSucceeds then ApplyFrom(dir, [], failing)
    else MigrationRun([], recorded, NoDatabase)
  }

  /** Running the migrations again over the same files applies nothing and records nothing. */
  lemma MigrateIdempotent(
    ready: bool, create: bool, dir: map<string, string>, recorded: seq<string>, failing: set<string>,
    create2: bool, failing2: set<string>)
    requires Migrate(ready, create, dir, recorded, failing).outcome == Completed
    ensures var again := Migrate(true, create2, dir, Migrate(ready, create, dir, recorded, failing).recorded, failing2);
      again.executed == [] && again.recorded == Migrate(ready, create, dir, recorded, failing).recorded
  {
    var first := Migrate(ready, create, dir, recorded, failing);
    var again := Migrate(true, create2, dir, first.recorded, failing2);
    assert forall n :: IsMigration(dir, n) ==> n in first.recorded;
    assert again == ApplyFrom(dir, first.recorded, failing2);
  }
}

=== FILE: pycall.dfy ===
/**
 * Just enough of Python's call semantics to follow a stored callback
 * invocation `callback(*args, **kwargs)`: unpacking of the stored argument
 * list and keyword map, and binding to positional-or-keyword parameters
 * without defaults.
 */
module PyCall {
  import opened Wrappers

  /**
   * The values that travel through the job table: integers, None and other
   * objects. An object carries what Python's `bool()` gives for it and, when
   * it is equal to an integer and hashes like it (as `5.0` and `True` are),
   * that integer: a dict keyed by integers finds it under that key.
   */
  datatype Value = IntVal(i: int) | NoneVal | Obj(ref: nat, truthy: bool, intKey: Option<int>)

  /** Python truthiness of a value. */
  predicate Truthy(v: Value) {
    match v
    case IntVal(i) => i != 0
    case NoneVal => false
    case Obj(_, truthy, _) => truthy
  }

  /** The integer key a lookup in an int-keyed dict finds for a value, if any. */
  function IntKey(v: Value): (r: Option<int>)
    ensures v.IntVal? ==> r == Some(v.i)
    ensures v.NoneVal? ==> r.None?
  {
    match v
    case IntVal(i) => Some(i)
    case NoneVal => None
    case Obj(_, _, k) => k
  }

  /** The `TypeError`s a call can raise before the callee's body runs. */
  datatype CallError =
    | StarArgNotIterable
    | DoubleStarArgNotMapping
    | TooManyPositional
    | UnexpectedKeyword
    | MultipleValues
    | MissingArguments(names: seq<string>)

  /** An unpacked call: positional values and keyword values. */
  datatype Call = Call(args: seq<Value>, kwargs: map<string, Value>)

  /**
   * `*args, **kwargs` where either may be None: `*None` and `**None` raise.
   * CPython merges the `**` operand into the keyword dict before the call
   * converts the lone `*` operand to a tuple, so with both None the `**`
   * error is the one raised.
   */
  function Unpack(args: Option<seq<Value>>, kwargs: Option<map<string, Value>>): (r: Result<Call, CallError>)
    ensures r.Ok? <==> args.Some? && kwargs.Some?
    ensures r.Ok? ==> r.value.args == args.value && r.value.kwargs == kwargs.value
    ensures kwargs.None? ==> r == Err(DoubleStarArgNotMapping)
    ensures args.None? && kwargs.Some? ==> r == Err(StarArgNotIterable)
  {
    match (args, kwargs)
    case (_, None) => Err(DoubleStarArgNotMapping)
    case (None, Some(_)) => Err(StarArgNotIterable)
    case (Some(a), Some(k)) => Ok(Call(a, k))
  }

  /** Parameter names of a `def` are pairwise distinct. */
  predicate DistinctNames(params: seq<string>) {
    forall i, j :: 0 <= i < j < |params| ==> params[i] != params[j]
  }

  /** The parameters, in order, that no keyword supplies. */
  function Unsupplied(params: seq<string>, kwargs: map<string, Value>): (r: seq<string>)
    ensures forall p :: p in r <==> p in params && p !in kwargs
  {
    if params == [] then []
    else (if params[0] in kwargs then [] else [params[0]]) + Unsupplied(params[1..], kwargs)
  }

  /** Some keyword names a parameter that a positional value already fills. */
  predicate RepeatsPositional(params: seq<string>, c: Call) {
    exists i :: 0 <= i < |c.args| && i < |params| && params[i] in c.kwargs
  }

  lemma RepeatsPositionalFilled(params: seq<string>, c: Call)
    ensures var filled := if |c.args| <= |params| then params[..|c.args|] else params;
      RepeatsPositional(params, c) <==> exists k :: k in c.kwargs && k in filled
  {
    var filled := if |c.args| <= |params| then params[..|c.args|] else params;
    if exists k :: k in c.kwargs && k in filled {
      var k :| k in c.kwargs && k in filled;
      var i :| 0 <= i < |filled| && filled[i] == k;
      assert params[i] == k;
    }
  }

  /**
   * Binding a call to the parameters `params`: the values the parameters
   * receive, in parameter order, or the `TypeError` Python raises. The
   * checks run in CPython's order: the keywords first (a name that is no
   * parameter, then a name a positional value already filled), then the
   * number of positional values, then the parameters left without a value.
   */
  function Bind(params: seq<string>, c: Call): (r: Result<seq<Value>, CallError>)
    requires DistinctNames(params)
    ensures r.Ok? <==>
      && |c.args| <= |params|
      && c.kwargs.Keys == set p | p in params[|c.args|..]
    ensures r.Ok? ==> |r.value| == |params|
    ensures r.Ok? ==> forall i :: 0 <= i < |c.args| ==> r.value[i] == c.args[i]
    ensures r.Ok? ==> forall i :: |c.args| <= i < |params| ==> r.value[i] == c.kwargs[params[i]]
    ensures r == Err(UnexpectedKeyword) <==> exists k :: k in c.kwargs && k !in params
    ensures r == Err(TooManyPositional) <==> |c.args| > |params| && c.kwargs == map[]
    ensures r == Err(MultipleValues) <==>
      (forall k :: k in c.kwargs ==> k in params) && RepeatsPositional(params, c)
    ensures r.Err? && r.error.MissingArguments? ==> |c.args| < |params| && r.error.names != []
    ensures r.Err? && r.error.MissingArguments? ==>
      forall p :: p in r.error.names <==> p in params[|c.args|..] && p !in c.kwargs
  {
    var n := |c.args|;
    var filled := if n <= |params| then params[..n] else params;
    RepeatsPositionalFilled(params, c);
    if exists k :: k in c.kwargs && k !in params then Err(UnexpectedKeyword)
    else if exists k :: k in c.kwargs && k in filled then Err(MultipleValues)
    else if n > |params| then
      assert forall k :: k !in c.kwargs;
      Err(TooManyPositional)
    else
      var missing := Unsupplied(params[n..], c.kwargs);
      if missing != [] then
        assert missing[0] in missing;
        Err(MissingArguments(missing))
      else
        assert forall i :: n <= i < |params| ==> params[i] in params[n..];
        Ok(seq(|params|, i requires 0 <= i < |params| => if i < n then c.args[i] else c.kwargs[params[i]]))
  }

  /**
   * Keywords are checked before the count of positional values: one
   * parameter, two positional values and a keyword reports the keyword.
   */
  lemma KeywordsCheckedFirst(x: Value, y: Value, v: Value)
    ensures Bind(["a"], Call([x, y], map["z" := v])) == Err(UnexpectedKeyword)
    ensures Bind(["a"], Call([x, y], map["a" := v])) == Err(MultipleValues)
  {
    assert "z" in map["z" := v] && "z" !in ["a"];
    assert "a" in map["a" := v] && "a" in ["a"];
  }

  /**
   * A keyword that repeats a positional value is reported before the
   * parameters left without a value: `f(a, b, c)` called as `f(x, a=v)`.
   */
  lemma RepeatedKeywordBeforeMissing(x: Value, v: Value)
    ensures Bind(["a", "b", "c"], Call([x], map["a" := v])) == Err(MultipleValues)
  {
    assert ["a", "b", "c"][0] == "a";
  }
}

=== FILE: settings.dfy ===
/** The one piece of arithmetic the settings file defines: the price of the next prestige. */
module Settings {

  /** The constant factor of the prestige price. */
  const PrestigeFactor: nat := 10000000

  /** `Settings.prestige_formula`: the currency needed to leave prestige level `prestige`. */
  function PrestigePrice(prestige: nat): (price: nat)
    ensures price == 0 <==> prestige == 0
    ensures price % PrestigeFactor == 0
    ensures prestige >= 1 ==> price >= PrestigeFactor
  {
    prestige * prestige * PrestigeFactor
  }

  /** Every balance of at least zero meets the price of the first prestige. */
  lemma FirstPrestigeAffordable(currency: int)
    requires currency >= 0
    ensures currency >= PrestigePrice(0)
  {
  }

  /** Each further prestige costs strictly more than the one before. */
  lemma PriceStrictlyIncreasing(p: nat, q: nat)
    requires p < q
    ensures PrestigePrice(p) < PrestigePrice(q)
  {
    assert p * p < q * q by {
      assert p * p <= p * q;
      assert p * q < q * q;
    }
  }
}

=== FILE: strings.dfy ===
/** Python's string comparison (code point by code point, a prefix first) and `str.endswith`. */
module Strings {

  /** `a <= b` for Python strings. */
  predicate Below(a: string, b: string)
    decreases |a|
  {
    a == [] || (b != [] && (a[0] < b[0] || (a[0] == b[0] && Below(a[1..], b[1..]))))
  }

  /** `s.endswith(suffix)`. */
  predicate EndsWith(s: string, suffix: string) {
    |s| >= |suffix| && s[|s| - |suffix|..] == suffix
  }

  lemma {:induction false} BelowTotal(a: string, b: string)
    ensures Below(a, b) || Below(b, a)
    decreases |a|
  {
    if a != [] && b != [] && a[0] == b[0] {
      BelowTotal(a[1..], b[1..]);
    }
  }

  lemma {:induction false} BelowAntisymmetric(a: string, b: string)
    requires Below(a, b) && Below(b, a)
    ensures a == b
    decreases |a|
  {
    if a != [] {
      BelowAntisymmetric(a[1..], b[1..]);
      assert a == [a[0]] + a[1..] && b == [b[0]] + b[1..];
    }
  }

  lemma {:induction false} BelowTransitive(a: string, b: string, c: string)
    requires Below(a, b) && Below(b, c)
    ensures Below(a, c)
    decreases |a|
  {
    if a != [] && a[0] == b[0] && b[0] == c[0] {
      BelowTransitive(a[1..], b[1..], c[1..]);
    }
  }

  predicate IsLeast(n: string, names: set<string>) {
    n in names && forall m :: m in names ==> Below(n, m)
  }

  /** Every non-empty finite set of strings has a least element. */
  lemma {:induction false} LeastExists(names: set<string>)
    requires names != {}
    ensures exists n :: IsLeast(n, names)
    decreases names
  {
    var x :| x in names;
    if names != {x} {
      LeastExists(names - {x});
      var y :| IsLeast(y, names - {x});
      BelowTotal(x, y);
      if Below(x, y) {
        forall m | m in names
          ensures Below(x, m)
        {
          if m != x {
            BelowTransitive(x, y, m);
          } else {
            BelowTotal(x, x);
          }
        }
        assert IsLeast(x, names);
      } else {
        assert IsLeast(y, names);
      }
    } else {
      BelowTotal(x, x);
      assert IsLeast(x, names);
    }
  }

  /** The least name of a non-empty set, as `sorted` would list it first. */
  ghost function Least(names: set<string>): (n: string)
    requires names != {}
    ensures IsLeast(n, names)
  {
    LeastExists(names);
    var n :| IsLeast(n, names);
    n
  }
}

=== FILE: task_manager.dfy ===
/**
 * The delayed-job manager: a dictionary from submitted job to the callback
 * to fire when the job finishes, and one pass of the poller over it.
 * The job backend is outside the model: a job's identity is supplied by the
 * caller and its state is a snapshot given to the pass.
 */
module TaskManager {
  import opened Wrappers
  import opened PyCall

  /** The identity of a submitted job (the backend's task id). */
  type JobId = int

  /** The name of an async function used as a completion callback. */
  type CallbackId = string

  /** The stored `[callback, args, kwargs]`; the argument list and keyword map may each be None. */
  datatype Entry = Entry(callback: CallbackId, args: Option<seq<Value>>, kwargs: Option<map<string, Value>>)

  /** One key of the dictionary and its value: an entry, or None when no callback was given. */
  datatype Slot = Slot(job: JobId, entry: Option<Entry>)

  /** The dictionary in insertion order, which is the order a pass visits it in. */
  type JobTable = seq<Slot>

  /** The backend's job states. */
  datatype JobState = Pending | Received | Started | Retry | Revoked | Success | Failure

  /** What `apply_async` hands to the backend. */
  datatype Submission = Submission(job: JobId, task: string, args: Option<seq<Value>>, kwargs: Option<map<string, Value>>, delay: int)

  datatype Applied = Applied(table: JobTable, submitted: Submission)

  /** A callback call made by a pass: the callback with exactly its stored arguments. */
  datatype Invocation = Invocation(job: JobId, callback: CallbackId, args: Option<seq<Value>>, kwargs: Option<map<string, Value>>)

  /**
   * The table after a pass, the calls that returned, in order, and the call
   * that raised and ended the poller, if one did.
   */
  datatype PassResult = PassResult(remaining: JobTable, invoked: seq<Invocation>, raised: Option<Invocation>) {
    predicate Crashed() { raised.Some? }
  }

  function Jobs(t: JobTable): set<JobId> {
    if t == [] then {} else {t[0].job} + Jobs(t[1..])
  }

  /** Dictionary keys are unique. */
  predicate DistinctJobs(t: JobTable) {
    t == [] || (t[0].job !in Jobs(t[1..]) && DistinctJobs(t[1..]))
  }

  lemma {:induction false} SlotJobInJobs(t: JobTable, s: Slot)
    requires s in t
    ensures s.job in Jobs(t)
  {
    if t[0] != s {
      assert s in t[1..];
      SlotJobInJobs(t[1..], s);
    }
  }

  /** The dictionary lookup: `None` for an absent key, otherwise the stored value. */
  function Lookup(t: JobTable, job: JobId): Option<Option<Entry>> {
    if t == [] then None
    else if t[0].job == job then Some(t[0].entry)
    else Lookup(t[1..], job)
  }

  /** `dict.update` with one key: replaced in place when present, appended otherwise. */
  function Put(t: JobTable, job: JobId, value: Option<Entry>): (r: JobTable)
    ensures Jobs(r) == Jobs(t) + {job}
    ensures |r| == |t| + (if job in Jobs(t) then 0 else 1)
    ensures Lookup(r, job) == Some(value)
    ensures forall j :: j != job ==> Lookup(r, j) == Lookup(t, j)
    ensures DistinctJobs(t) ==> DistinctJobs(r)
  {
    if t == [] then [Slot(job, value)]
    else if t[0].job == job then
      assert ([Slot(job, value)] + t[1..])[1..] == t[1..];
      [Slot(job, value)] + t[1..]
    else
      var rest := Put(t[1..], job, value);
      assert ([t[0]] + rest)[1..] == rest;
      [t[0]] + rest
  }

  /**
   * `apply_with_delay`: submit the job with its countdown and record one
   * dictionary entry for it, `[callback, args, kwargs]` when a callback was
   * given and None otherwise.
   */
  function ApplyWithDelay(
    t: JobTable, job: JobId, task: string, delay: int,
    args: Option<seq<Value>>, kwargs: Option<map<string, Value>>,
    callback: Option<CallbackId>, callbackArgs: Option<seq<Value>>, callbackKwargs: Option<map<string, Value>>): (r: Applied)
    ensures callback.Some? ==> Lookup(r.table, job) == Some(Some(Entry(callback.value, callbackArgs, callbackKwargs)))
    ensures callback.None? ==> Lookup(r.table, job) == Some(None)
    ensures r.submitted == Submission(job, task, args, kwargs, delay)
  {
    var value := if callback.Some? then Some(Entry(callback.value, callbackArgs, callbackKwargs)) else None;
    Applied(Put(t, job, value), Submission(job, task, args, kwargs, delay))
  }

  /** Scheduling a job adds exactly its key and leaves every other entry as it was. */
  lemma ApplyWithDelayFrame(
    t: JobTable, job: JobId, task: string, delay: int,
    args: Option<seq<Value>>, kwargs: Option<map<string, Value>>,
    callback: Option<CallbackId>, callbackArgs: Option<seq<Value>>, callbackKwargs: Option<map<string, Value>>)
    ensures var r := ApplyWithDelay(t, job, task, delay, args, kwargs, callback, callbackArgs, callbackKwargs);
      (job !in Jobs(t) ==> |r.table| == |t| + 1) &&
      Jobs(r.table) == Jobs(t) + {job} &&
      (forall j :: j != job ==> Lookup(r.table, j) == Lookup(t, j)) &&
      (DistinctJobs(t) ==> DistinctJobs(r.table))
  {
  }

  /** The two states the poller treats as finished; a job the snapshot does not know is pending. */
  predicate Finished(states: map<JobId, JobState>, job: JobId) {
    job in states && (states[job] == Success || states[job] == Failure)
  }

  /** The call a pass makes for a slot that holds an entry. */
  function CallFor(job: JobId, e: Entry): Invocation {
    Invocation(job, e.callback, e.args, e.kwargs)
  }

  predicate DistinctCalls(calls: seq<Invocation>) {
    forall k, l :: 0 <= k < l < |calls| ==> calls[k].job != calls[l].job
  }

  /**
   * One pass of `catch_results` over the table in insertion order. A
   * finished job's entry, if any, has its callback called with the stored
   * arguments (never the job's result), and then the key is removed. If the
   * call raises (`raises` lists those jobs) the exception leaves the poller:
   * the pass ends there and the entry stays. Unfinished jobs are kept as they are.
   */
  function Poll(t: JobTable, states: map<JobId, JobState>, raises: set<JobId>): (r: PassResult)
    requires DistinctJobs(t)
    ensures forall s :: s in r.remaining ==> s in t
    ensures Jobs(r.remaining) <= Jobs(t)
    ensures DistinctJobs(r.remaining)
    ensures forall s :: s in t && !Finished(states, s.job) ==> s in r.remaining
    ensures !r.Crashed() ==> forall s :: s in r.remaining ==> !Finished(states, s.job)
    ensures forall c :: c in r.invoked ==> Finished(states, c.job) && c.job !in raises
    ensures forall c :: c in r.invoked ==> Slot(c.job, Some(Entry(c.callback, c.args, c.kwargs))) in t
    ensures r.Crashed() ==> var c := r.raised.value;
      c.job in raises && Finished(states, c.job) && Slot(c.job, Some(Entry(c.callback, c.args, c.kwargs))) in t
    ensures CrashFacts(t, r)
    decreases |t|
  {
    if t == [] then PassResult([], [], None)
    else
      var slot := t[0];
      var tail := t[1..];
      assert forall s :: s in t ==> s == slot || s in tail;
      if !Finished(states, slot.job) then
        var rest := Poll(tail, states, raises);
        KeepHead(t, rest.remaining);
        var r := PassResult([slot] + rest.remaining, rest.invoked, rest.raised);
        CrashShift(t, rest, r);
        r
      else if slot.entry.None? then
        var r := Poll(tail, states, raises);
        CrashShift(t, r, r);
        r
      else
        var call := CallFor(slot.job, slot.entry.value);
        if slot.job in raises then
          assert From(t, slot.job) == t;
          PassResult(t, [], Some(call))
        else
          var rest := Poll(tail, states, raises);
          var r := PassResult(rest.remaining, [call] + rest.invoked, rest.raised);
          CrashShift(t, rest, r);
          r
  }

  /** The slots of unfinished jobs, in table order. */
  function Unfinished(t: JobTable, states: map<JobId, JobState>): (r: JobTable)
    ensures |r| <= |t|
    ensures forall s :: s in r <==> s in t && !Finished(states, s.job)
  {
    if t == [] then []
    else (if Finished(states, t[0].job) then [] else [t[0]]) + Unfinished(t[1..], states)
  }

  /**
   * A pass that does not crash keeps exactly the unfinished slots, in their
   * insertion order, which decides the order of the next pass's calls.
   */
  lemma {:induction false} PollKeepsOrder(t: JobTable, states: map<JobId, JobState>, raises: set<JobId>)
    requires DistinctJobs(t)
    ensures var r := Poll(t, states, raises);
      !r.Crashed() ==> r.remaining == Unfinished(t, states)
    decreases |t|
  {
    if t != [] {
      var slot := t[0];
      if !(Finished(states, slot.job) && slot.entry.Some? && slot.job in raises) {
        PollKeepsOrder(t[1..], states, raises);
      }
    }
  }

  /** Where a crashed pass stopped: the number of slots before the one that raised. */
  function CrashIndex(t: JobTable, r: PassResult): (k: nat)
    requires r.Crashed()
    ensures k <= |t|
    ensures From(t, r.raised.value.job) != [] ==> k < |t|
  {
    |t| - |From(t, r.raised.value.job)|
  }

  /**
   * A pass that crashes keeps the unfinished slots before the raising one,
   * in order, followed by the raising slot and everything after it.
   */
  lemma {:induction false} PollCrashKeepsPrefix(t: JobTable, states: map<JobId, JobState>, raises: set<JobId>)
    requires DistinctJobs(t)
    ensures var r := Poll(t, states, raises);
      r.Crashed() ==> var k := CrashIndex(t, r);
        r.remaining == Unfinished(t[..k], states) + t[k..]
    decreases |t|
  {
    var r := Poll(t, states, raises);
    if t != [] && r.Crashed() {
      var slot := t[0];
      var tail := t[1..];
      if Finished(states, slot.job) && slot.entry.Some? && slot.job in raises {
        assert From(t, slot.job) == t;
      } else {
        var rest := Poll(tail, states, raises);
        CrashStep(t, states, raises);
        var k := CrashIndex(tail, rest);
        assert CrashIndex(t, r) == k + 1;
        assert rest.remaining == Unfinished(tail[..k], states) + tail[k..] by {
          PollCrashKeepsPrefix(tail, states, raises);
        }
        assert r.remaining == if Finished(states, slot.job) then rest.remaining else [slot] + rest.remaining by {
          PollStep(t, states, raises);
        }
        KeepPrefixStep(t, k + 1, states, rest.remaining, r.remaining);
      }
    }
  }

  /**
   * A pass that crashes does so at the first finished slot whose callback
   * raises: every finished slot with a callback before it had that callback
   * called, and it did not raise.
   */
  lemma {:induction false} PollCrashesAtFirstRaise(t: JobTable, states: map<JobId, JobState>, raises: set<JobId>)
    requires DistinctJobs(t)
    ensures var r := Poll(t, states, raises);
      r.Crashed() ==> var k := CrashIndex(t, r);
        forall i :: 0 <= i < k && Finished(states, t[i].job) && t[i].entry.Some? ==>
          t[i].job !in raises && CallFor(t[i].job, t[i].entry.value) in r.invoked
    decreases |t|
  {
    var r := Poll(t, states, raises);
    if t != [] && r.Crashed() {
      var slot := t[0];
      var tail := t[1..];
      if Finished(states, slot.job) && slot.entry.Some? && slot.job in raises {
        assert From(t, slot.job) == t;
      } else {
        var rest := Poll(tail, states, raises);
        PollCrashesAtFirstRaise(tail, states, raises);
        CrashStep(t, states, raises);
        var k := CrashIndex(t, r);
        forall i | 0 <= i < k && Finished(states, t[i].job) && t[i].entry.Some?
          ensures t[i].job !in raises && CallFor(t[i].job, t[i].entry.value) in r.invoked
        {
          if i > 0 {
            assert t[i] == tail[i - 1];
          }
        }
      }
    }
  }

  /** One step of a pass: what it does with the head slot, in terms of the pass over the rest. */
  lemma PollStep(t: JobTable, states: map<JobId, JobState>, raises: set<JobId>)
    requires t != [] && DistinctJobs(t)
    ensures var r := Poll(t, states, raises); var rest := Poll(t[1..], states, raises);
      && (!Finished(states, t[0].job) ==> r == PassResult([t[0]] + rest.remaining, rest.invoked, rest.raised))
      && (Finished(states, t[0].job) && t[0].entry.None? ==> r == rest)
      && (Finished(states, t[0].job) && t[0].entry.Some? && t[0].job !in raises ==>
            r == PassResult(rest.remaining, [CallFor(t[0].job, t[0].entry.value)] + rest.invoked, rest.raised))
      && (Finished(states, t[0].job) && t[0].entry.Some? && t[0].job in raises ==>
            r == PassResult(t, [], Some(CallFor(t[0].job, t[0].entry.value))))
  {
  }

  /** A crash after the head slot comes from the rest of the table, one slot further on. */
  lemma CrashStep(t: JobTable, states: map<JobId, JobState>, raises: set<JobId>)
    requires t != [] && DistinctJobs(t)
    requires !(Finished(states, t[0].job) && t[0].entry.Some? && t[0].job in raises)
    requires Poll(t, states, raises).Crashed()
    ensures var r := Poll(t, states, raises); var rest := Poll(t[1..], states, raises);
      && rest.raised == r.raised
      && CrashIndex(t, r) == CrashIndex(t[1..], rest) + 1
  {
    var r := Poll(t, states, raises);
    var rest := Poll(t[1..], states, raises);
    var job := r.raised.value.job;
    assert rest.raised == r.raised;
    assert job in Jobs(t[1..]);
    FromSkip(t, job);
  }

  /** Keeping the unfinished slots of a prefix commutes with taking off the head slot. */
  lemma KeepPrefixStep(t: JobTable, k: int, states: map<JobId, JobState>, restKept: JobTable, kept: JobTable)
    requires 1 <= k <= |t|
    requires restKept == Unfinished(t[1..][..k - 1], states) + t[1..][k - 1..]
    requires kept == if Finished(states, t[0].job) then restKept else [t[0]] + restKept
    ensures kept == Unfinished(t[..k], states) + t[k..]
  {
    var p := t[..k];
    var u := Unfinished(t[1..][..k - 1], states);
    var v := t[1..][k - 1..];
    assert p[1..] == t[1..][..k - 1];
    assert t[k..] == v;
    if Finished(states, t[0].job) {
      assert Unfinished(p, states) == u;
    } else {
      assert Unfinished(p, states) == [t[0]] + u;
      assert [t[0]] + (u + v) == ([t[0]] + u) + v;
    }
  }

  /** Keeping the head slot in front of what the pass kept of the rest keeps the table's slots and unique keys. */
  lemma KeepHead(t: JobTable, rest: JobTable)
    requires t != [] && DistinctJobs(t)
    requires forall s :: s in rest ==> s in t[1..]
    requires Jobs(rest) <= Jobs(t[1..]) && DistinctJobs(rest)
    ensures var kept := [t[0]] + rest;
      && (forall s :: s in kept <==> s == t[0] || s in rest)
      && Jobs(kept) == {t[0].job} + Jobs(rest)
      && DistinctJobs(kept)
  {
    var kept := [t[0]] + rest;
    assert kept[1..] == rest;
  }

  /** The slot a crashed pass raised on. */
  function RaisedSlot(r: PassResult): Slot
    requires r.Crashed()
  {
    var c := r.raised.value;
    Slot(c.job, Some(Entry(c.callback, c.args, c.kwargs)))
  }

  /**
   * What a raising callback leaves behind: its slot and every slot after it
   * stay at the end of the table, unchanged and in order, and no job from
   * its slot on was called.
   */
  predicate CrashFacts(t: JobTable, r: PassResult) {
    r.Crashed() ==>
      var rest := From(t, r.raised.value.job);
      && rest != [] && rest[0] == RaisedSlot(r)
      && |rest| <= |r.remaining| && r.remaining[|r.remaining| - |rest|..] == rest
      && forall d :: d in r.invoked ==> d.job !in Jobs(rest)
  }

  /** One step of the pass keeps `CrashFacts`: the head slot is kept or dropped, and a call made for it precedes the crash. */
  lemma CrashShift(t: JobTable, sub: PassResult, r: PassResult)
    requires t != [] && DistinctJobs(t)
    requires r.raised == sub.raised
    requires r.remaining == [t[0]] + sub.remaining || r.remaining == sub.remaining
    requires forall d :: d in r.invoked ==> d in sub.invoked || d.job == t[0].job
    requires CrashFacts(t[1..], sub)
    ensures CrashFacts(t, r)
  {
    if r.Crashed() {
      var job := r.raised.value.job;
      var rest := From(t[1..], job);
      assert t[0].job !in Jobs(t[1..]);
      assert t[0].job !in Jobs(rest) && t[0].job != job;
      FromSkip(t, job);
      if r.remaining != sub.remaining {
        SuffixCons(t[0], sub.remaining, rest);
      }
    }
  }

  /** The slots from the one keyed `job` to the end of the table; empty when `job` is not a key. */
  function From(t: JobTable, job: JobId): (r: JobTable)
    ensures |r| <= |t|
    ensures r != [] <==> job in Jobs(t)
    ensures r != [] ==> r[0].job == job
    ensures Jobs(r) <= Jobs(t)
  {
    if t == [] then []
    else if t[0].job == job then t
    else From(t[1..], job)
  }

  /** `From` is a suffix of the table: the slots after `job`'s are exactly the table's last ones. */
  lemma {:induction false} FromIsSuffix(t: JobTable, job: JobId)
    ensures From(t, job) == t[|t| - |From(t, job)|..]
  {
    if t != [] && t[0].job != job {
      FromIsSuffix(t[1..], job);
      assert t[1..][|t| - 1 - |From(t, job)|..] == t[|t| - |From(t, job)|..];
    }
  }

  /** Skipping a head slot with another key does not move where `job`'s suffix starts. */
  lemma FromSkip(t: JobTable, job: JobId)
    requires t != [] && t[0].job != job
    ensures From(t, job) == From(t[1..], job)
  {
  }

  /** A suffix of a table stays a suffix when a slot is put in front. */
  lemma SuffixCons(slot: Slot, xs: JobTable, rest: JobTable)
    requires |rest| <= |xs| && xs[|xs| - |rest|..] == rest
    ensures var ys := [slot] + xs; |rest| <= |ys| && ys[|ys| - |rest|..] == rest
  {
    var ys := [slot] + xs;
    assert ys[|ys| - |rest|..] == xs[|xs| - |rest|..];
  }

  /** A key identifies its slot. */
  lemma {:induction false} SlotOfJob(t: JobTable, a: Slot, b: Slot)
    requires DistinctJobs(t) && a in t && b in t && a.job == b.job
    ensures a == b
  {
    if a != t[0] && b != t[0] {
      assert a in t[1..] && b in t[1..];
      SlotOfJob(t[1..], a, b);
    } else if a != t[0] {
      assert a in t[1..];
      SlotJobInJobs(t[1..], a);
    } else if b != t[0] {
      assert b in t[1..];
      SlotJobInJobs(t[1..], b);
    }
  }

  /** A call for a job no other call is for extends a list of distinct calls. */
  lemma DistinctCallsCons(call: Invocation, calls: seq<Invocation>)
    requires DistinctCalls(calls)
    requires forall c :: c in calls ==> c.job != call.job
    ensures DistinctCalls([call] + calls)
  {
    var all := [call] + calls;
    forall k, l | 0 <= k < l < |all|
      ensures all[k].job != all[l].job
    {
      assert all[l] == calls[l - 1];
      if k > 0 {
        assert all[k] == calls[k - 1];
      } else {
        assert calls[l - 1] in calls;
      }
    }
  }

  /** A pass calls each job's callback at most once. */
  lemma {:induction false} PollCallsDistinct(t: JobTable, states: map<JobId, JobState>, raises: set<JobId>)
    requires DistinctJobs(t)
    ensures DistinctCalls(Poll(t, states, raises).invoked)
    decreases |t|
  {
    if t != [] {
      var tail := t[1..];
      PollCallsDistinct(tail, states, raises);
      var r := Poll(t, states, raises);
      var rest := Poll(tail, states, raises);
      if Finished(states, t[0].job) && t[0].entry.Some? && t[0].job !in raises {
        var call := CallFor(t[0].job, t[0].entry.value);
        assert r.invoked == [call] + rest.invoked;
        forall c | c in rest.invoked
          ensures c.job != call.job
        {
          SlotJobInJobs(tail, Slot(c.job, Some(Entry(c.callback, c.args, c.kwargs))));
        }
        DistinctCallsCons(call, rest.invoked);
      }
    }
  }

  /** A pass that does not crash calls the callback of every finished job that has one. */
  lemma {:induction false} PollCallsEveryFinished(t: JobTable, states: map<JobId, JobState>, raises: set<JobId>)
    requires DistinctJobs(t)
    requires !Poll(t, states, raises).Crashed()
    ensures forall s :: s in t && Finished(states, s.job) && s.entry.Some? ==>
      CallFor(s.job, s.entry.value) in Poll(t, states, raises).invoked
    decreases |t|
  {
    if t != [] {
      var tail := t[1..];
      assert forall s :: s in t ==> s == t[0] || s in tail;
      if !(Finished(states, t[0].job) && t[0].entry.Some? && t[0].job in raises) {
        PollCallsEveryFinished(tail, states, raises);
      }
    }
  }

  /**
   * A callback fires at most once: after a pass that did not crash, no
   * later pass, whatever the job states then, calls it again.
   */
  lemma InvokedAtMostOnce(t: JobTable, first: map<JobId, JobState>, later: map<JobId, JobState>, raises: set<JobId>)
    requires DistinctJobs(t)
    requires !Poll(t, first, raises).Crashed()
    ensures forall c, d ::
      c in Poll(t, first, raises).invoked && d in Poll(Poll(t, first, raises).remaining, later, raises).invoked ==>
        c.job != d.job
  {
    var r1 := Poll(t, first, raises);
    var r2 := Poll(r1.remaining, later, raises);
    forall c, d | c in r1.invoked && d in r2.invoked
      ensures c.job != d.job
    {
      assert Slot(d.job, Some(Entry(d.callback, d.args, d.kwargs))) in r1.remaining;
    }
  }

  /**
   * Every callback call the poller makes in consecutive passes over `t`, one
   * pass per snapshot of job states, the raising one included; the poller
   * stops after a pass that crashes.
   */
  function CallsOverPasses(t: JobTable, snapshots: seq<map<JobId, JobState>>, raises: set<JobId>): (calls: seq<Invocation>)
    requires DistinctJobs(t)
    ensures forall c :: c in calls ==> Slot(c.job, Some(Entry(c.callback, c.args, c.kwargs))) in t
    decreases |snapshots|
  {
    if snapshots == [] then []
    else
      var r := Poll(t, snapshots[0], raises);
      if r.Crashed() then r.invoked + [r.raised.value]
      else
        var later := CallsOverPasses(r.remaining, snapshots[1..], raises);
        assert forall c :: c in r.invoked + later ==> c in r.invoked || c in later;
        r.invoked + later
  }

  /**
   * A callback fires at most once over any number of passes: after a pass
   * that did not crash, no later pass, whatever the job states then, calls
   * any callback that pass called.
   */
  lemma NeverCalledAgain(t: JobTable, first: map<JobId, JobState>, snapshots: seq<map<JobId, JobState>>, raises: set<JobId>)
    requires DistinctJobs(t)
    requires !Poll(t, first, raises).Crashed()
    ensures forall c, d ::
      c in Poll(t, first, raises).invoked && d in CallsOverPasses(Poll(t, first, raises).remaining, snapshots, raises) ==>
        c.job != d.job
  {
    var r1 := Poll(t, first, raises);
    var later := CallsOverPasses(r1.remaining, snapshots, raises);
    forall c, d | c in r1.invoked && d in later
      ensures c.job != d.job
    {
      assert Slot(d.job, Some(Entry(d.callback, d.args, d.kwargs))) in r1.remaining;
    }
  }

  /** A job recorded without a callback never causes a call, and is dropped once finished. */
  lemma NoCallbackNoCall(t: JobTable, states: map<JobId, JobState>, raises: set<JobId>, job: JobId)
    requires DistinctJobs(t)
    requires Slot(job, None) in t
    ensures forall c :: c in Poll(t, states, raises).invoked ==> c.job != job
    ensures !Poll(t, states, raises).Crashed() && Finished(states, job) ==> Slot(job, None) !in Poll(t, states, raises).remaining
  {
    var r := Poll(t, states, raises);
    forall c | c in r.invoked
      ensures c.job != job
    {
      var slot := Slot(c.job, Some(Entry(c.callback, c.args, c.kwargs)));
      if c.job == job {
        SlotOfJob(t, slot, Slot(job, None));
      }
    }
  }

  /** How `catch_results` forms the call: `callback(*args, **kwargs)` with the stored values, bound to `params`. */
  function DispatchAsWritten(inv: Invocation, params: seq<string>): (r: Result<seq<Value>, CallError>)
    requires DistinctNames(params)
    ensures inv.kwargs.None? ==> r == Err(DoubleStarArgNotMapping)
    ensures inv.args.None? && inv.kwargs.Some? ==> r == Err(StarArgNotIterable)
    ensures inv.args.Some? && inv.kwargs.Some? ==> r == Bind(params, Call(inv.args.value, inv.kwargs.value))
  {
    match Unpack(inv.args, inv.kwargs)
    case Err(e) => Err(e)
    case Ok(c) => Bind(params, c)
  }

  /**
   * The call the completion callbacks are written for:
   * `callback(result, *args, **kwargs)`, a missing argument list or keyword
   * map standing for an empty one.
   */
  function DispatchWithResult(inv: Invocation, result: Value, params: seq<string>): (r: Result<seq<Value>, CallError>)
    requires DistinctNames(params)
    ensures r.Ok? ==> |r.value| >= 1 && r.value[0] == result
  {
    var args := match inv.args case Some(a) => a case None => [];
    var kwargs := match inv.kwargs case Some(k) => k case None => map[];
    Bind(params, Call([result] + args, kwargs))
  }
}

=== FILE: tasks_repo.dfy ===
/** The task catalog as a user sees it: rewards scaled by that user's prestige. */
module TasksRepo {
  import opened Wrappers
  import opened Ledger
  import UserRepo

  /** The record `get_tasks` builds for each catalog row. */
  datatype TaskView = TaskView(id: TaskId, name: string, reward: int, expReward: int, lvlRequired: int, cost: int, length: int)

  /** A NULL reward fails the record's validation. */
  datatype ViewError = RewardIsNull

  /**
   * `get_tasks`: one record per catalog task, `reward` and `exp_reward`
   * multiplied by the user's prestige, everything else as stored. An unknown
   * user's prestige is NULL, which makes every reward NULL; with an empty
   * catalog no record is built and nothing fails.
   */
  function GetTasks(s: Ledger, tid: TelegramId): (r: Result<map<TaskId, TaskView>, ViewError>)
    ensures r.Ok? <==> tid in s.users || s.tasks == map[]
    ensures r.Ok? ==> r.value.Keys == s.tasks.Keys
    ensures r.Ok? ==> forall t :: t in r.value ==>
      && r.value[t].id == t
      && r.value[t].name == s.tasks[t].name
      && r.value[t].lvlRequired == s.tasks[t].lvlRequired
      && r.value[t].cost == s.tasks[t].cost
      && r.value[t].length == s.tasks[t].length
    ensures r.Ok? ==> forall t :: t in r.value ==>
      && r.value[t].reward == s.tasks[t].reward * s.users[tid].prestige
      && r.value[t].expReward == s.tasks[t].expReward * s.users[tid].prestige
  {
    if tid in s.users then
      var p := s.users[tid].prestige;
      Ok(map t | t in s.tasks :: View(t, s.tasks[t], p))
    else if s.tasks == map[] then Ok(map[])
    else Err(RewardIsNull)
  }

  function View(id: TaskId, d: TaskDef, prestige: nat): TaskView {
    TaskView(id, d.name, d.reward * prestige, d.expReward * prestige, d.lvlRequired, d.cost, d.length)
  }

  /** Before the first prestige a task pays neither currency nor experience. */
  lemma NoRewardAtPrestigeZero(s: Ledger, tid: TelegramId)
    requires tid in s.users && s.users[tid].prestige == 0
    ensures forall t :: t in GetTasks(s, tid).value ==>
      GetTasks(s, tid).value[t].reward == 0 && GetTasks(s, tid).value[t].expReward == 0
  {
  }

  /**
   * A prestige raises every listed reward and experience reward by the
   * task's base amount and leaves the other fields of the listing alone.
   */
  lemma PrestigeRaisesTaskRewards(s: Ledger, tid: TelegramId)
    requires tid in s.users
    ensures GetTasks(UserRepo.PrestigeUp(s, tid), tid).Ok? && GetTasks(s, tid).Ok?
    ensures var before, after := GetTasks(s, tid).value, GetTasks(UserRepo.PrestigeUp(s, tid), tid).value;
      && after.Keys == before.Keys
      && forall k :: k in after ==>
        && after[k].reward == before[k].reward + s.tasks[k].reward
        && after[k].expReward == before[k].expReward + s.tasks[k].expReward
        && after[k] == before[k].(reward := after[k].reward, expReward := after[k].expReward)
  {
    var p := s.users[tid].prestige;
    forall k | k in s.tasks
      ensures s.tasks[k].reward * (p + 1) == s.tasks[k].reward * p + s.tasks[k].reward
      ensures s.tasks[k].expReward * (p + 1) == s.tasks[k].expReward * p + s.tasks[k].expReward
    {
    }
  }
}

=== FILE: user_repo.dfy ===
/**
 * The user data-access object: registration, the guarded building
 * purchase, the periodic currency tick, the income and balance queries and
 * the prestige reset, each as a transition or query on the ledger.
 */
module UserRepo {
  import opened Wrappers
  import opened Ledger

  /** Defaults of the `users` columns other than `currency`; they are set by migration scripts outside this model. */
  datatype ColumnDefaults = ColumnDefaults(prestige: nat, lvl: int, xp: int)

  /** The only way a registration fails: `telegram_id` is declared unique. */
  datatype DbError = UniqueViolation

  /** `currency BIGINT DEFAULT 0`. */
  const DefaultCurrency: int := 0

  /** A purchase's reply together with the ledger it leaves. */
  datatype Purchase = Purchase(bought: bool, ledger: Ledger)

  /** The pair `get_currency_status` returns; the balance is NULL for an unknown user. */
  datatype CurrencyStatus = CurrencyStatus(currency: Option<int>, income: int)

  /** `check_user`: whether a `users` row exists for the id. */
  function CheckUser(s: Ledger, tid: TelegramId): bool {
    tid in s.users
  }

  /** `register_user`: insert a row with the column defaults; a second insert for the same id violates uniqueness. */
  function RegisterUser(s: Ledger, tid: TelegramId, d: ColumnDefaults): (r: Result<Ledger, DbError>)
    ensures r.Err? <==> CheckUser(s, tid)
    ensures r.Ok? ==> CheckUser(r.value, tid)
    ensures r.Ok? ==> r.value.users[tid].currency == 0
    ensures r.Ok? ==> r.value.users[tid] == User(0, d.prestige, d.lvl, d.xp)
    ensures r.Ok? ==> r.value.users.Keys == s.users.Keys + {tid}
    ensures r.Ok? ==> forall u :: u in s.users ==> r.value.users[u] == s.users[u]
    ensures r.Ok? ==> r.value.owned == s.owned && r.value.buildings == s.buildings && r.value.tasks == s.tasks
    ensures r.Ok? && Valid(s) ==> Valid(r.value)
  {
    if tid in s.users then Err(UniqueViolation)
    else Ok(s.(users := s.users[tid := User(DefaultCurrency, d.prestige, d.lvl, d.xp)]))
  }

  /**
   * The affordability query of `buy_building`. A missing user row or a
   * missing building makes the SQL comparison NULL, which reads as false.
   */
  predicate Affordable(s: Ledger, tid: TelegramId, bid: BuildingId) {
    tid in s.users && bid in s.buildings && s.users[tid].currency >= s.buildings[bid].cost
  }

  /** `buy_building`: debit the cost and add one to the ownership count, or change nothing. */
  function BuyBuilding(s: Ledger, tid: TelegramId, bid: BuildingId): (r: Purchase)
    ensures r.bought <==> tid in s.users && bid in s.buildings && s.users[tid].currency >= s.buildings[bid].cost
    ensures !r.bought ==> r.ledger == s
    ensures r.ledger.users.Keys == s.users.Keys
    ensures r.bought ==> r.ledger.users[tid].currency == s.users[tid].currency - s.buildings[bid].cost
    ensures r.bought ==> r.ledger.users[tid].currency >= 0
    ensures r.bought ==> r.ledger.users[tid] == s.users[tid].(currency := r.ledger.users[tid].currency)
    ensures forall u :: u in s.users && u != tid ==> r.ledger.users[u] == s.users[u]
    ensures r.bought ==> Count(r.ledger, Holding(tid, bid)) == Count(s, Holding(tid, bid)) + 1
    ensures forall h :: h != Holding(tid, bid) ==> Count(r.ledger, h) == Count(s, h)
    ensures r.ledger.buildings == s.buildings && r.ledger.tasks == s.tasks
    ensures Valid(s) ==> Valid(r.ledger)
  {
    if !Affordable(s, tid, bid) then Purchase(false, s)
    else
      var user := s.users[tid];
      var h := Holding(tid, bid);
      var count := if h in s.owned then s.owned[h] + 1 else 1;
      Purchase(true, s.(
        users := s.users[tid := user.(currency := user.currency - s.buildings[bid].cost)],
        owned := s.owned[h := count]))
  }

  /**
   * `currency_tick`: every user with at least one ownership row gains
   * `sum(count * income * prestige)` over those rows; nothing else changes.
   */
  ghost function CurrencyTick(s: Ledger): (t: Ledger)
    ensures t.users.Keys == s.users.Keys
    ensures forall u :: u in s.users ==> t.users[u].currency == s.users[u].currency + Income(s, u)
    ensures forall u :: u in s.users ==> t.users[u] == s.users[u].(currency := t.users[u].currency)
    ensures t.owned == s.owned && t.buildings == s.buildings && t.tasks == s.tasks
  {
    s.(users := map u | u in s.users ::
      if HoldingsOf(s, u) != {} then s.users[u].(currency := s.users[u].currency + Income(s, u))
      else s.users[u])
  }

  /** `get_income`: the per-user sum of the tick, or 0 when the user has no rows (SQL `SUM` of nothing is NULL). */
  ghost function GetIncome(s: Ledger, tid: TelegramId): (r: int)
    ensures tid !in s.users && Valid(s) ==> r == 0
    ensures HoldingsOf(s, tid) == {} ==> r == 0
    ensures (forall b :: b in s.buildings ==> s.buildings[b].income >= 0) ==> r >= 0
  {
    if HoldingsOf(s, tid) == {} then 0
    else
      SumIncomeNonNegativeIfCatalogIs(s, HoldingsOf(s, tid));
      Income(s, tid)
  }

  lemma SumIncomeNonNegativeIfCatalogIs(s: Ledger, hs: set<Holding>)
    ensures (forall b :: b in s.buildings ==> s.buildings[b].income >= 0) ==> SumIncome(s, hs) >= 0
  {
    if forall b :: b in s.buildings ==> s.buildings[b].income >= 0 {
      SumIncomeNonNegative(s, hs);
    }
  }

  /** `get_currency`: the stored balance, NULL for an unknown user. */
  function GetCurrency(s: Ledger, tid: TelegramId): Option<int> {
    if tid in s.users then Some(s.users[tid].currency) else None
  }

  /** `get_prestige`: the stored prestige, NULL for an unknown user. */
  function GetPrestige(s: Ledger, tid: TelegramId): Option<nat> {
    if tid in s.users then Some(s.users[tid].prestige) else None
  }

  /** `get_currency_status`: the balance and the income per tick. */
  ghost function GetCurrencyStatus(s: Ledger, tid: TelegramId): (r: CurrencyStatus)
    ensures r.currency.Some? <==> CheckUser(s, tid)
    ensures r.currency.Some? ==> r.currency.value == s.users[tid].currency
    ensures r.income == GetIncome(s, tid)
  {
    CurrencyStatus(GetCurrency(s, tid), GetIncome(s, tid))
  }

  /**
   * `prestige_up`: prestige goes up by one, the balance becomes 1000 times
   * the new prestige and every ownership row of the user is deleted. It does
   * not check the price and does not touch `lvl` or `xp`. For an unknown id
   * every statement matches no row.
   */
  function PrestigeUp(s: Ledger, tid: TelegramId): (t: Ledger)
    ensures tid !in s.users ==> t == s
    ensures t.users.Keys == s.users.Keys
    ensures tid in s.users ==> t.users[tid].prestige == s.users[tid].prestige + 1
    ensures tid in s.users ==> t.users[tid].currency == 1000 * t.users[tid].prestige
    ensures tid in s.users ==> t.users[tid].lvl == s.users[tid].lvl && t.users[tid].xp == s.users[tid].xp
    ensures forall u :: u in s.users && u != tid ==> t.users[u] == s.users[u]
    ensures tid in s.users || Valid(s) ==> HoldingsOf(t, tid) == {}
    ensures forall h: Holding :: h.user != tid ==> Count(t, h) == Count(s, h)
    ensures t.buildings == s.buildings && t.tasks == s.tasks
    ensures Valid(s) ==> Valid(t)
  {
    if tid !in s.users then s
    else
      var p := s.users[tid].prestige + 1;
      s.(users := s.users[tid := s.users[tid].(prestige := p, currency := 1000 * p)],
         owned := map h | h in s.owned && h.user != tid :: s.owned[h])
  }
}

=== FILE: user_repo_props.dfy ===
/**
 * Properties that relate several user-repository operations: how a purchase
 * and a prestige change the income the tick pays, and that ticks add up.
 */
module UserRepoProps {
  import opened Wrappers
  import opened Ledger
  import opened UserRepo

  /** The income query and the tick's per-user sum agree. */
  lemma GetIncomeIsTickShare(s: Ledger, tid: TelegramId)
    ensures GetIncome(s, tid) == Income(s, tid)
  {
  }

  /** A purchase raises the buyer's income by the building's base income times their prestige, and no one else's. */
  lemma BuyRaisesIncome(s: Ledger, tid: TelegramId, bid: BuildingId)
    requires BuyBuilding(s, tid, bid).bought
    ensures GetIncome(BuyBuilding(s, tid, bid).ledger, tid)
         == GetIncome(s, tid) + s.buildings[bid].income * s.users[tid].prestige
    ensures forall v :: v != tid ==> GetIncome(BuyBuilding(s, tid, bid).ledger, v) == GetIncome(s, v)
  {
    BuyRaisesBuyerIncome(s, tid, bid);
    forall v | v != tid
      ensures GetIncome(BuyBuilding(s, tid, bid).ledger, v) == GetIncome(s, v)
    {
      BuyKeepsOthersIncome(s, tid, bid, v);
    }
  }

  /** One more unit of a row adds one unit's share. */
  lemma RowIncomeStep(c: int, i: int, p: int)
    ensures (c + 1) * i * p == c * i * p + i * p
  {
    assert (c + 1) * i == c * i + i;
  }

  /** The buyer's half of `BuyRaisesIncome`: the bought row's share grows by one unit, every other row stays. */
  lemma {:induction false} BuyRaisesBuyerIncome(s: Ledger, tid: TelegramId, bid: BuildingId)
    requires BuyBuilding(s, tid, bid).bought
    ensures Income(BuyBuilding(s, tid, bid).ledger, tid)
         == Income(s, tid) + s.buildings[bid].income * s.users[tid].prestige
  {
    var t := BuyBuilding(s, tid, bid).ledger;
    var h0 := Holding(tid, bid);
    var a := HoldingsOf(s, tid);
    var b := HoldingsOf(t, tid);
    assert b == a + {h0};
    assert b - {h0} == a - {h0};
    SumIncomeRemove(t, b, h0);
    var c, i, p := Count(s, h0), s.buildings[bid].income, s.users[tid].prestige;
    assert RowIncome(t, h0) == (c + 1) * i * p;
    RowIncomeStep(c, i, p);
    forall h | h in a - {h0}
      ensures RowIncome(s, h) == RowIncome(t, h)
    {
      assert Count(s, h) == Count(t, h);
    }
    SumIncomeFrame(s, t, a - {h0});
    if h0 in a {
      SumIncomeRemove(s, a, h0);
    } else {
      assert a - {h0} == a;
    }
  }

  /** The other half of `BuyRaisesIncome`: a purchase leaves every other user's rows, and so their income, alone. */
  lemma BuyKeepsOthersIncome(s: Ledger, tid: TelegramId, bid: BuildingId, v: TelegramId)
    requires v != tid
    ensures GetIncome(BuyBuilding(s, tid, bid).ledger, v) == GetIncome(s, v)
  {
    var t := BuyBuilding(s, tid, bid).ledger;
    assert HoldingsOf(s, v) == HoldingsOf(t, v);
    IncomeFrame(s, t, v);
  }

  /** After a prestige the user earns nothing until they buy again; every other user's income is untouched. */
  lemma PrestigeIncome(s: Ledger, tid: TelegramId)
    requires tid in s.users
    ensures GetIncome(PrestigeUp(s, tid), tid) == 0
    ensures forall v :: v != tid ==> GetIncome(PrestigeUp(s, tid), v) == GetIncome(s, v)
  {
    var t := PrestigeUp(s, tid);
    forall v | v != tid
      ensures GetIncome(t, v) == GetIncome(s, v)
    {
      assert HoldingsOf(s, v) == HoldingsOf(t, v) by {
        forall h: Holding | h.user == v
          ensures h in s.owned <==> h in t.owned
        {
          assert Count(s, h) == Count(t, h);
        }
      }
      IncomeFrame(s, t, v);
    }
  }

  /** A tick changes balances only, so it leaves every income as it was. */
  lemma TickKeepsIncome(s: Ledger, u: TelegramId)
    ensures GetIncome(CurrencyTick(s), u) == GetIncome(s, u)
  {
    IncomeFrame(s, CurrencyTick(s), u);
  }

  /** One tick raises every balance by exactly what the income query reports. */
  lemma TickAddsIncome(s: Ledger, u: TelegramId)
    requires u in s.users
    ensures CurrencyTick(s).users[u].currency == s.users[u].currency + GetIncome(s, u)
  {
  }

  /** Two ticks with nothing in between add twice the income. */
  lemma TwoTicks(s: Ledger, u: TelegramId)
    requires u in s.users
    ensures CurrencyTick(CurrencyTick(s)).users[u].currency == s.users[u].currency + 2 * GetIncome(s, u)
  {
    TickKeepsIncome(s, u);
  }

  /** The balance message after a purchase shows the old balance minus the cost and the old income plus the building's share. */
  lemma StatusAfterPurchase(s: Ledger, tid: TelegramId, bid: BuildingId)
    requires BuyBuilding(s, tid, bid).bought
    ensures GetCurrencyStatus(BuyBuilding(s, tid, bid).ledger, tid)
         == CurrencyStatus(
              Some(GetCurrency(s, tid).value - s.buildings[bid].cost),
              GetCurrencyStatus(s, tid).income + s.buildings[bid].income * GetPrestige(s, tid).value)
  {
    BuyRaisesIncome(s, tid, bid);
  }

  /** `check_user` is true exactly once a registration went through; no other transition adds or removes a user. */
  lemma CheckUserTracksRegistration(s: Ledger, tid: TelegramId, d: ColumnDefaults, bid: BuildingId, u: TelegramId)
    ensures RegisterUser(s, tid, d).Ok? <==> !CheckUser(s, tid)
    ensures RegisterUser(s, tid, d).Ok? ==>
      (CheckUser(RegisterUser(s, tid, d).value, u) <==> CheckUser(s, u) || u == tid)
    ensures CheckUser(BuyBuilding(s, tid, bid).ledger, u) == CheckUser(s, u)
    ensures CheckUser(PrestigeUp(s, tid), u) == CheckUser(s, u)
    ensures CheckUser(CurrencyTick(s), u) == CheckUser(s, u)
  {
  }

  /** `get_currency` follows every balance change: 0 on registration, minus the cost on a purchase, plus the income on a tick, 1000 times the new prestige after a prestige. */
  lemma GetCurrencyTracksTransitions(s: Ledger, tid: TelegramId, d: ColumnDefaults, bid: BuildingId)
    ensures GetCurrency(s, tid).Some? <==> CheckUser(s, tid)
    ensures RegisterUser(s, tid, d).Ok? ==> GetCurrency(RegisterUser(s, tid, d).value, tid) == Some(DefaultCurrency)
    ensures BuyBuilding(s, tid, bid).bought ==>
      GetCurrency(BuyBuilding(s, tid, bid).ledger, tid) == Some(GetCurrency(s, tid).value - s.buildings[bid].cost)
    ensures CheckUser(s, tid) ==>
      GetCurrency(CurrencyTick(s), tid) == Some(GetCurrency(s, tid).value + GetIncome(s, tid))
    ensures CheckUser(s, tid) ==>
      GetCurrency(PrestigeUp(s, tid), tid) == Some(1000 * (GetPrestige(s, tid).value + 1))
  {
    if CheckUser(s, tid) {
      assert GetIncome(s, tid) == Income(s, tid);
      assert CurrencyTick(s).users[tid].currency == s.users[tid].currency + Income(s, tid);
    }
  }

  /** `get_prestige` changes only through a prestige, by one. */
  lemma GetPrestigeTracksTransitions(s: Ledger, tid: TelegramId, d: ColumnDefaults, bid: BuildingId, u: TelegramId)
    ensures GetPrestige(s, u).Some? <==> CheckUser(s, u)
    ensures RegisterUser(s, tid, d).Ok? ==> GetPrestige(RegisterUser(s, tid, d).value, tid) == Some(d.prestige)
    ensures GetPrestige(PrestigeUp(s, tid), u)
         == if u == tid && CheckUser(s, tid) then Some(GetPrestige(s, tid).value + 1) else GetPrestige(s, u)
    ensures GetPrestige(BuyBuilding(s, tid, bid).ledger, u) == GetPrestige(s, u)
    ensures GetPrestige(CurrencyTick(s), u) == GetPrestige(s, u)
  {
  }
}

=== FILE: wrappers.dfy ===
/** Failure-compatible wrappers shared by every module of the model. */
module Wrappers {

  /** A value that may be absent: SQL NULL, Python None, a missing dictionary key. */
  datatype Option<+T> = None | Some(value: T)

  /** The outcome of an operation that may raise instead of returning. */
  datatype Result<+T, +E> = Ok(value: T) | Err(error: E)
}
